=== FILE: README.md ===
# lilium WebDAV server: a Dafny model of its core

The server publishes one user's notes over WebDAV. Notes and folders live in two
SQLite tables:
- `folders(id, title, parent_id, user_id, created_at, updated_at)`
- `notes(id, title, syntax, content, parent_id, user_id, created_at, updated_at)`

A folder is a WebDAV collection. A note `title` with syntax `syntax` appears as
the file `title.syntax`.

This project models three layers:
- **the store engine** in `SqliteFs`: path resolution, lookups, listing, the six
  mutations and the `is_descendant` cycle check;
- **the `DavFileSystem` methods** built on it, and the `SqliteDavFile` cursor
  that `open` returns;
- **the `serve` request handler**: Basic authentication, refusing DELETE of the
  root, and appending a charset to `text/...` Content-Types.

Modules, one per file:

| file | module | contents |
|---|---|---|
| `types.dfy` | `Types` | `Option`, `Result`, `FsError`, `byte` |
| `utf8.dfy` | `Utf8` | well-formed UTF-8 (RFC 3629, section 4); note content is such a byte string |
| `text.dfy` | `Text` | `split`, `trim_matches`, `rsplitn`-style last index, `starts_with`, `contains` |
| `timestamps.dfy` | `Timestamps` | `current_timestamp` and `parse_datetime` |
| `store.dfy` | `Store` | the two tables as maps keyed by row id; parent chains; the invariant `Wf` |
| `filesystem.dfy` | `Filesystem` | `resolve_path`, `find_folder`, `note_exists`, `get_note`, `list_entries`, `parse_filename`, the six mutations, `is_descendant` |
| `descendants.dfy` | `Descendants` | `is_descendant` is exactly "is on the parent chain" |
| `resolution.dfy` | `Resolution` | `resolve_path` against a relational reference (`NamesPlace`) |
| `invariants.dfy` | `Invariants` | every mutation keeps `Wf` |
| `effects.dfy` | `Effects` | what a later lookup sees after each mutation |
| `davfile.dfy` | `DavFiles` | `SqliteDavFile`: read, seek, write, flush, metadata |
| `dispatch.dfy` | `Dispatch` | `open`, `read_dir`, `metadata`, `get_props`, `create_dir`, `remove_file`, `remove_dir`, `rename` |
| `commands.dfy` | `Commands` | `verify_credentials`, the user-id default of `serve`, `handle_request` |

`Wf` is the invariant of the tree. It has four parts:
- every parent is the root or a folder of the same user;
- every parent chain reaches the root;
- folder keys `(parent, title, user)` are unique;
- note keys `(parent, title, syntax, user)` are unique.

Every mutation keeps `Wf`, and so does every `DavFileSystem` method and `flush`.
Under `Wf`, SQLite's "some matching row" answer of `query_row` has exactly one
possible value.

Parameters stand in for things outside the model:
- the clock is `now` (seconds);
- fresh row ids are `freshId` (the source draws a UUID v4);
- URL percent-decoding is a function `decode`;
- the WebDAV protocol handler is a function from request to response.

`TimestampRoundTrip` proves a property of the timestamps as written. Parsing the
text that `current_timestamp` writes gives the clock reading plus exactly one day.
The writer counts days of the month from 1; the reader adds `day` without
subtracting 1. The calendar itself is approximate: 365-day years and 30-day months.

## Model

| member | source | states |
|---|---|---|
| Filesystem.ParseFilename | src/webdav/filesystem.rs:726-733 | no dot gives `None`; otherwise `title + "." + syntax` is the name and `syntax` has no dot (the split is at the last dot) |
| Filesystem.ParseFilenameUnique | src/webdav/filesystem.rs:726-733 | any split of a name whose extension has no dot is the one `parse_filename` returns |
| Filesystem.FindFolder | src/webdav/filesystem.rs:100-125 | the answer is a folder of the user with that title directly under that parent; `None` exactly when there is no such folder |
| Filesystem.FindFolderUnique | src/webdav/filesystem.rs:100-125 | with unique folder keys, `find_folder` returns the one matching folder |
| Filesystem.FindNote | src/webdav/filesystem.rs:127-153 | the answer is a note of the user with that key; `None` exactly when `note_exists` is false |
| Filesystem.NoteExists | src/webdav/filesystem.rs:127-153 | the query returns a row exactly when some note of the user has that parent, title and syntax |
| Filesystem.FindNoteUnique | src/webdav/filesystem.rs:155-187 | with unique note keys, the note lookup returns the one matching row |
| Filesystem.GetNote | src/webdav/filesystem.rs:155-187 | `NotFound` exactly when no note has the key; otherwise the data of a row with that key |
| Filesystem.ListEntries | src/webdav/filesystem.rs:207-314 | a folder or note row is listed exactly when it belongs to the user and sits directly under the parent; every entry is a row of the tables |
| Filesystem.WalkFolders | src/webdav/filesystem.rs:87-93 | the walk over the leading segments ends at the root or at a folder of the user |
| Filesystem.ResolveSegments | src/webdav/filesystem.rs:58-97 | a non-empty segment list never resolves to the root; failure is `NotFound`; what it names belongs to the user |
| Filesystem.PathSegments | src/webdav/filesystem.rs:44-55 | `None` exactly when the path is only slashes; otherwise at least one segment |
| Filesystem.ResolvePath | src/webdav/filesystem.rs:43-98 | `Root` exactly for paths made only of slashes; errors are `NotFound`; a resolved folder or note key belongs to the user |
| Filesystem.CreateOrUpdateNote | src/webdav/filesystem.rs:317-362 | an existing key keeps its id, its `created_at` and its set of rows, and gets the new content and `updated_at`; a new key is inserted under the fresh id, and that fails exactly on a clashing id or a missing parent; no other row changes |
| Filesystem.CreateFolder | src/webdav/filesystem.rs:365-392 | an existing title under the parent is `Exists`; otherwise it succeeds exactly on a free id and an existing parent, adding one folder and changing nothing else |
| Filesystem.DeleteNote | src/webdav/filesystem.rs:395-429 | fails with `NotFound` exactly when the key is missing; otherwise removes exactly the matching row |
| Filesystem.DeleteFolder | src/webdav/filesystem.rs:439-476 | fails with `NotFound` exactly when the folder is not the user's; otherwise removes the folder, every folder whose chain reaches it, and exactly the notes whose parent went, leaving all other rows as they were |
| Filesystem.RenameNote | src/webdav/filesystem.rs:479-558 | a missing source is `NotFound`; otherwise it succeeds exactly when the destination parent exists; the source row then has the destination key, the same id, content and `created_at`; any other row with the destination key is gone; every other row is unchanged |
| Filesystem.RenameFolder | src/webdav/filesystem.rs:561-630 | the checks run in order: a missing source is `NotFound`, another folder with the new key is `Exists`, and `Forbidden` only for a new parent that `is_descendant` puts below the folder; a move that passes the checks to an existing parent (the root included) succeeds; success moves and retitles the folder and touches nothing else |
| Filesystem.DescendantWalk | src/webdav/filesystem.rs:641-654 | the loop answers true at once when it stands on the ancestor, and otherwise only after stepping from a folder of the user |
| Filesystem.IsDescendant | src/webdav/filesystem.rs:633-657 | a folder is its own descendant; any other true answer starts from a folder of the user that has a parent |
| Descendants.IsDescendantSound | src/webdav/filesystem.rs:633-657 | `is_descendant(c, a)` answers true only if `a` is on the parent chain of `c` |
| Descendants.IsDescendantComplete | src/webdav/filesystem.rs:633-657 | on a well-formed store, every ancestor of a folder of the user is found |
| Descendants.IsDescendantIff | src/webdav/filesystem.rs:633-657 | both directions: on a well-formed store `is_descendant` is "is on the parent chain" |
| Descendants.RenameFolderForbiddenIff | src/webdav/filesystem.rs:600-611 | a move is refused as `Forbidden` exactly when the new parent's chain passes through the folder; otherwise it succeeds |
| Store.ChainBound | src/webdav/filesystem.rs:641-654 | a parent chain that ends does so within one more step than there are folders, so bounding the loop by that count loses no answer |
| Resolution.WalkSound | src/webdav/filesystem.rs:87-93 | the folder the walk returns is named by the segments, title by title from the root |
| Resolution.WalkComplete | src/webdav/filesystem.rs:87-93 | with unique folder keys, the walk finds the folder the segments name |
| Resolution.ResolveSegmentsMeaning | src/webdav/filesystem.rs:58-97 | resolves to a note exactly when the leading segments name its folder and the last is its file name; to a folder exactly when all segments name it and no note shadows it; `NotFound` exactly when neither exists |
| Resolution.PathSegmentsDecode | src/webdav/filesystem.rs:44-55 | decoding never changes how a path is cut: the segments exist exactly when the undecoded pieces do, there are as many, and each is `decode` of the piece at its place |
| Resolution.PathSegmentsJoin | src/webdav/filesystem.rs:44-55 | with a decoder that changes nothing, joining the segments with `/` gives the trimmed path |
| Invariants.CreateOrUpdateNoteKeepsWf | src/webdav/filesystem.rs:317-362 | `create_or_update_note` keeps the tree well formed |
| Invariants.CreateFolderKeepsWf | src/webdav/filesystem.rs:365-392 | `create_folder` keeps the tree well formed |
| Invariants.CreateFolderKeepsAcyclic | src/webdav/filesystem.rs:365-392 | `create_folder` keeps every parent chain ending |
| Invariants.DeleteNoteKeepsWf | src/webdav/filesystem.rs:395-429 | `delete_note` keeps the tree well formed |
| Invariants.DeleteFolderKeepsWf | src/webdav/filesystem.rs:439-476 | the cascade removes whole subtrees, so what remains stays well formed |
| Invariants.RenameNoteKeepsWf | src/webdav/filesystem.rs:479-558 | `rename_note` keeps the tree well formed, because the displaced destination note is deleted first |
| Invariants.MoveKeepsAcyclic | src/webdav/filesystem.rs:600-626 | re-pointing a folder at a parent whose chain avoids it leaves every chain ending |
| Invariants.RenameFolderKeepsWf | src/webdav/filesystem.rs:561-630 | `rename_folder` keeps the tree well formed: the existence check keeps keys unique and the descendant check keeps chains ending |
| Effects.GetAfterWrite | src/webdav/filesystem.rs:317-362 | after a write, `get_note` on that key returns the written content under the returned id, stamped with the write time |
| Effects.GoneAfterDeleteNote | src/webdav/filesystem.rs:395-429 | after `delete_note` the key names no note and `get_note` is `NotFound` |
| Effects.GetAfterRenameNote | src/webdav/filesystem.rs:479-558 | after `rename_note` the destination key names the moved note with its content, and the source key is free unless it is the destination |
| Effects.FindAfterCreateFolder | src/webdav/filesystem.rs:365-392 | after `create_folder`, `find_folder` on that key returns the new id |
| Effects.FindAfterRenameFolder | src/webdav/filesystem.rs:561-630 | after `rename_folder`, `find_folder` on the new key returns the folder, and no note moves |
| Effects.SubtreeOwned | src/webdav/filesystem.rs:439-476 | on a scoped store the cascade removes only folders of the deleted folder's owner |
| Effects.NothingBelowAfterDeleteFolder | src/webdav/filesystem.rs:439-476 | after `delete_folder` the folder is gone, no remaining chain reaches it, no note has it as parent, and other users' notes remain |
| Timestamps.Fields | src/webdav/filesystem.rs:661-686 | the fields are in range (hours, minutes, seconds, day 1-30, month 1-13) and recover the clock reading exactly in the 365/30-day calendar |
| Timestamps.CurrentTimestamp | src/webdav/filesystem.rs:661-686 | the written text splits at `-`, space and `:` into the six zero-padded fields of the approximate date of the clock reading |
| Timestamps.ParseI64 | src/webdav/filesystem.rs:1224-1231 | an accepted piece is within the range of `i64` |
| Timestamps.ParseDatetime | src/webdav/filesystem.rs:1216-1239 | a parsed time is a `u64` number of seconds |
| Timestamps.FormatSplits | src/webdav/filesystem.rs:1222 | splitting a written timestamp at `-`, space and `:` gives back its six zero-padded fields |
| Timestamps.PaddedParses | src/webdav/filesystem.rs:1224-1231 | a zero-padded decimal field parses back to its number |
| Timestamps.TimestampRoundTrip | src/webdav/filesystem.rs:1233-1234 | parsing what `current_timestamp` writes gives the clock reading plus exactly one day |
| DavFiles.TimeOf | src/webdav/davfile.rs:168-187 | a parsable timestamp gives its parsed value; any other gives the current time |
| DavFiles.FileMetadata | src/webdav/davfile.rs:79-91 | a file, with the length of the note as opened and its two parsed times |
| DavFiles.New | src/webdav/davfile.rs:29-38 | a file on the note that reads back the note's content and refuses every write |
| DavFiles.NewWritable | src/webdav/davfile.rs:40-49 | a file on the note, under the given parent, that reads back the note's content and accepts every write |
| DavFiles.Read | src/webdav/davfile.rs:93-101 | returns `min(count, len - pos)` bytes from the position (none past the end), exactly the buffer's bytes there, and advances the position by that many |
| DavFiles.ReadNew | src/webdav/davfile.rs:29-49 | a freshly opened file, read in one go, yields the note's content |
| DavFiles.ReadTwice | src/webdav/davfile.rs:93-101 | two consecutive reads return what one read of both counts returns and leave the same position |
| DavFiles.Seek | src/webdav/davfile.rs:103-108 | `Start` sets the position; `End` and `Current` succeed exactly when the signed sum stays within `0..2^64`; failure is `GeneralFailure` and leaves the file alone |
| DavFiles.WriteAll | src/webdav/davfile.rs:110-133 | empty data changes nothing; otherwise the buffer is zero-filled up to the position, holds the data from there, keeps every byte beyond it, and the position moves past the data |
| DavFiles.Write | src/webdav/davfile.rs:110-133 | refused with `Forbidden` exactly on a read-only file; otherwise a `write_all` of all the bytes |
| DavFiles.ReadBackWrite | src/webdav/davfile.rs:103-133 | after a write, seeking back to where it began and reading gives the data written |
| DavFiles.WriteOverwrites | src/webdav/davfile.rs:110-120 | a later write of the same length at the same place replaces an earlier one |
| DavFiles.ReadOnlyFile | src/webdav/davfile.rs:29-38 | a read-only file refuses every write and flushes as a no-op |
| DavFiles.ShortWriteKeepsTail | src/webdav/davfile.rs:40-49 | a writable file keeps the old content in its buffer, so a shorter write leaves the old tail after the new bytes |
| DavFiles.Flush | src/webdav/davfile.rs:135-164 | a no-op on a read-only file; `GeneralFailure` on a buffer that is not UTF-8; otherwise `create_or_update_note` of the buffer under the opening parent, title and syntax |
| DavFiles.FlushStoresBuffer | src/webdav/davfile.rs:135-164 | after a flush, `get_note` at the file's key returns the buffer |
| Dispatch.Open | src/webdav/filesystem.rs:780-885 | a folder, the root or an all-slash path is `Forbidden`; a missing path without `create`/`create_new` is `NotFound`, and with one of them is `Dispatch.CreateAt` of its segments; a path naming an existing note opens that note, as `get_note` returns it, without touching the store, and a writable file stays under the resolved folder; the file's parent belongs to the user; a writable file needs one of the write/append/create flags |
| Dispatch.CreateAt | src/webdav/filesystem.rs:816-878 | a last segment without an extension is `Forbidden` and a missing folder on the way `NotFound`; otherwise `create_or_update_note` of an empty note named by `parse_filename` of the last segment under the walked folder, and a writable file on that note and folder |
| Dispatch.OpenCreateStep | src/webdav/filesystem.rs:816-878 | a successful create-open walked the path's folders to `p`, read `t.s` from the last segment, and wrote the empty note `t.s` under `p` |
| Dispatch.OpenExistingNote | src/webdav/filesystem.rs:793-811 | opening an existing note leaves the store alone; the file is on the note `get_note` returns, holds its content at position 0, is writable exactly with write or append, and when writable belongs to the folder the path resolved to |
| Dispatch.PutUpdatesInPlace | src/webdav/filesystem.rs:793-811 | opening an existing note for writing, writing to it and flushing updates that same note in place: `get_note` at its folder, title and syntax finds the same id holding the written buffer, no note is added or removed, and every other note is unchanged |
| Dispatch.OpenCreatesNote | src/webdav/filesystem.rs:816-878 | creating a missing file gives a writable, empty file whose folder is the one the leading segments name and whose title and syntax are `parse_filename` of the last segment, and `get_note` there finds an empty note |
| Dispatch.OpenKeepsWf | src/webdav/filesystem.rs:780-885 | `open` keeps the tree well formed |
| Dispatch.FlushAfterOpenKeepsWf | src/webdav/davfile.rs:135-164 | flushing a file that `open` returned keeps the tree well formed |
| Dispatch.Listing | src/webdav/filesystem.rs:902-931 | one entry per row: a folder under its title, a note as `title.syntax`, with the row's metadata |
| Dispatch.ReadDir | src/webdav/filesystem.rs:887-934 | a note is `Forbidden` and a missing path `NotFound`; the root and a folder list exactly the user's rows directly under them, one entry per row |
| Dispatch.ListedNoteResolves | src/webdav/filesystem.rs:887-934 | a listed note's name, appended to its folder's path, resolves back to that note when its syntax has no dot |
| Dispatch.ListedFolderResolves | src/webdav/filesystem.rs:887-934 | a listed folder's name, appended to its parent's path, resolves back to that folder unless a note of the same name shadows it |
| Dispatch.Metadata | src/webdav/filesystem.rs:936-977 | errors are `NotFound`; the root is a directory stamped now; a folder is a directory with its own parsed times; a found note is a file with its content's length and its parsed times |
| Dispatch.MetadataOfOpenedNote | src/webdav/filesystem.rs:966-973 | `metadata` of a note's path equals the `metadata` of the file `open` returns for that path |
| Dispatch.GetProps | src/webdav/filesystem.rs:995-1014 | no dead properties, whether or not the path resolves |
| Dispatch.TargetParent | src/webdav/filesystem.rs:1046-1052 | the walk over all segments but the last, shared by `create_dir`, `open` and `rename`: a missing folder is `NotFound`, otherwise the root or a folder of the user |
| Dispatch.CreateDir | src/webdav/filesystem.rs:1016-1061 | `Forbidden` exactly for the root; a missing folder on the way is `NotFound`; otherwise the outcome of `create_folder` of the last segment under the folder the leading segments name |
| Dispatch.CreateDirKeepsWf | src/webdav/filesystem.rs:1016-1061 | `create_dir` keeps the tree well formed |
| Dispatch.CreateDirMakesFolder | src/webdav/filesystem.rs:1043-1057 | after `create_dir` of `/a/b/c`, `find_folder` of `c` under the folder `/a/b` names returns the new folder |
| Dispatch.RemoveFile | src/webdav/filesystem.rs:1063-1092 | a folder or the root is `Forbidden` and a missing path `NotFound`; a path naming a note gives exactly the outcome of `delete_note` of that note |
| Dispatch.RemoveFileKeepsWf | src/webdav/filesystem.rs:1063-1092 | `remove_file` keeps the tree well formed |
| Dispatch.RemoveDir | src/webdav/filesystem.rs:1094-1121 | a note or the root is `Forbidden` and a missing path `NotFound`; a path naming a folder gives exactly the outcome of `delete_folder` of that folder |
| Dispatch.RemoveDirKeepsWf | src/webdav/filesystem.rs:1094-1121 | `remove_dir` keeps the tree well formed |
| Dispatch.Rename | src/webdav/filesystem.rs:1123-1212 | an all-slash destination is `Forbidden`; a missing destination folder is `NotFound`, both checked before the source; then a missing source is `NotFound`, a root source `Forbidden`, a note moved to a name without an extension `Forbidden`; otherwise the outcome of `rename_note` or `rename_folder` with the destination's folder and last segment |
| Dispatch.RenameKeepsWf | src/webdav/filesystem.rs:1123-1212 | `rename` keeps the tree well formed |
| Dispatch.RenameMovesNote | src/webdav/filesystem.rs:1161-1192 | after renaming a note, the destination's folder and file name name a note with the source note's content |
| Dispatch.RenameMovesFolder | src/webdav/filesystem.rs:1193-1202 | after renaming a folder, `find_folder` of the destination's last segment under its parent folder returns it |
| Commands.ConfigOf | src/commands.rs:53 | the user id is the one given, or else the login name |
| Commands.CtEq | src/commands.rs:40-41 | the comparison that runs over every position answers true exactly for equal strings |
| Commands.VerifyCredentials | src/commands.rs:34-44 | true exactly when both the name and the password are the configured ones |
| Commands.FixContentType | src/commands.rs:186-195 | only `content-type` can change: a visible-ASCII `text/...` value without `charset` gets `; charset=utf-8` appended, and any other value stays |
| Commands.FixContentTypeIdempotent | src/commands.rs:186-195 | applying the Content-Type fix twice is applying it once |
| Commands.FixedTextHasCharset | src/commands.rs:186-195 | after the fix, every visible-ASCII `text/...` Content-Type mentions a charset |
| Commands.HandleRequest | src/commands.rs:92-206 | no credentials gives 401 "Unauthorized" with the Basic challenge; wrong credentials give 401 "Invalid credentials" with the challenge; an unreadable body gives 400 "Bad Request" |
| Commands.OnlyAuthenticatedReachDav | src/commands.rs:105-134 | without the configured credentials the answer is a 401 with a challenge, whatever the WebDAV handler would do |
| Commands.RootDeleteForbidden | src/commands.rs:161-172 | an authenticated DELETE of a path made only of slashes gets the fixed answer 403 with no headers and the body `Cannot delete root directory`, whatever the WebDAV handler would have answered |
| Commands.PassedToDav | src/commands.rs:174-195 | any other authenticated request with a readable body reaches the handler under the configured user id; the response keeps its status and body, and its headers get the Content-Type fix |

## Left out

- SQLite itself is left out: connections, transactions and I/O errors. An error other than a foreign-key or primary-key failure cannot occur in the model. `open_db` is not modelled.
- Concurrency and the memory lock system (`MemLs`) are left out: every operation is one atomic step on an immutable store.
- `extract_basic_auth` and header parsing (`src/webdav/auth.rs`) are not part of this model. A request carries the credentials or `None`.
- The timing of `ct_eq` is not modelled. `Commands.CtEq` visits every position without stopping early, and compares characters rather than UTF-8 bytes; the two agree, since the encoding is injective.
- Percent-decoding is the `decode` parameter; `decode_utf8_lossy` is not modelled.
- Logging (`eprintln!`), the `println!` banner, the `Database file not found` check and address parsing in `serve` are left out.
- The WebDAV protocol handler (`DavHandler` of `dav_server`) is a function parameter; its PROPFIND, autoindex and locking behaviour is not modelled.
- Row order in listings is not modelled: a listing maps each row to its entry, one entry per row.
- Headers are a map with one value per lower-case name.
- The request headers are not passed to the WebDAV handler: `Commands.DavRequest` carries the verb, path, body and user id, while `src/commands.rs:174` forwards every header (Depth, Destination, Content-Type and the rest).
- `symlink_metadata` (a call to `metadata`) and `have_props` (a constant) have no members of their own.
- `get_folder_meta` is inlined into `Dispatch.Metadata` as a lookup of the folder row.
- Unicode strings are `seq<char>`. Note content is UTF-8 bytes, so `into_bytes` is the identity and `from_utf8` is `Utf8.Valid`.
- `open` passes four arguments to `new_writable`, but `src/webdav/davfile.rs` defines it with three (no `truncate`). The model follows `davfile.rs`: the truncate flag is ignored, and an existing file opened for writing keeps its old bytes. `DavFiles.ShortWriteKeepsTail` states the consequence.
- DavFiles.Write: the `u64` overflow of the cursor position on a write past `2^64` bytes is not modelled; positions are unbounded.
- Timestamps.ParseDatetime: `SystemTime::now()` on a parse failure is `None`, resolved by `DavFiles.TimeOf` against `now`. The `i64` arithmetic wraps and `as u64` reduces modulo `2^64`, as in a release build; the debug-build overflow panic and the `SystemTime` overflow panic for huge values are not modelled.
- Dispatch.Open: the two `current_timestamp()` calls for a created note read the same clock value `now`.
- DavFiles.Flush: the `fs == None` branch of `flush` is unreachable, since both constructors set `fs`, and is left out.
- Filesystem.RenameNote: when the final `UPDATE` fails on a missing destination parent, the source has already deleted the displaced destination note; the model returns `GeneralFailure` with the store unchanged. On a store where every parent exists the update cannot fail this way, because the destination parent comes from `find_folder`.
- Filesystem.RenameFolder: the `Exists` outcome is stated only for stores with unique folder keys. Without them, `find_folder` may return the moved folder itself even though another folder has the key.
- Filesystem.ResolvePath: database errors while walking the path are left out, so every failure is `NotFound`.
- Commands.HandleRequest: the contract states the two 401 cases and the 400 on an unreadable body; the root-DELETE 403 and the pass-through are stated by `Commands.RootDeleteForbidden` and `Commands.PassedToDav`.
- Filesystem.IsDescendant: on a store whose parent chains loop without reaching the ancestor (which the schema does not forbid, though no operation of the model creates one), the loop at `src/webdav/filesystem.rs:641-654` never ends; the model stops after one more step than there are folders and answers false, so `rename_folder` goes ahead. On a store whose chains end, the bound loses no answer (`Store.ChainBound`, `Descendants.IsDescendantIff`).

=== FILE: commands.dfy ===
/** The HTTP front of the `serve` command: every request must carry the
    configured Basic credentials, DELETE of the root is refused before the
    WebDAV handler sees it, and a `text/...` response without a charset gets
    `; charset=utf-8` appended to its Content-Type. The WebDAV handler itself
    is a parameter. */
module Commands {
  import opened Types
  import Text

  /** Basic credentials as `extract_basic_auth` returns them. */
  datatype Credentials = Credentials(username: string, password: string)

  /** The `serve` arguments the request handler depends on. */
  datatype ServeArgs = ServeArgs(username: string, password: string, userId: Option<string>)

  datatype ServerConfig = ServerConfig(username: string, password: string, userId: string)

  /** An incoming request. `auth` is `None` when no valid Basic header was
      found; `body` is `None` when reading the body failed. */
  datatype Request = Request(verb: string, path: string, auth: Option<Credentials>, body: Option<seq<byte>>)

  /** The request as the WebDAV handler receives it, with the user id its
      filesystem is scoped to. */
  datatype DavRequest = DavRequest(verb: string, path: string, body: seq<byte>, userId: string)

  /** Header names are lower case, one value each. */
  type Headers = map<string, seq<byte>>

  /** The handler's response; `body` is `None` when reading it failed. */
  datatype DavResponse = DavResponse(status: nat, headers: Headers, body: Option<seq<byte>>)

  datatype Response = Response(status: nat, headers: Headers, body: seq<byte>)

  const Unauthorized: nat := 401
  const BadRequest: nat := 400
  const ForbiddenStatus: nat := 403

  /** The bytes of a string of ASCII characters (each character's code, taken
      modulo 256 so that the function is total). */
  function Ascii(s: string): (b: seq<byte>)
    ensures |b| == |s| && forall i | 0 <= i < |s| :: b[i] as int == s[i] as int % 256
  {
    seq(|s|, i requires 0 <= i < |s| => (s[i] as int % 256) as byte)
  }

  /** The characters of a byte string, one per byte. */
  function Chars(b: seq<byte>): (s: string)
    ensures |s| == |b| && forall i | 0 <= i < |b| :: s[i] as int == b[i] as int
  {
    seq(|b|, i requires 0 <= i < |b| => b[i] as int as char)
  }

  /** `serve`: the user id defaults to the login name. */
  function ConfigOf(args: ServeArgs): (c: ServerConfig)
    ensures c.username == args.username && c.password == args.password
    ensures args.userId.None? ==> c.userId == args.username
    ensures args.userId.Some? ==> c.userId == args.userId.value
  {
    ServerConfig(args.username, args.password, if args.userId.Some? then args.userId.value else args.username)
  }

  /** `ct_eq` on two strings: unequal lengths differ at once; otherwise every
      position is visited and a difference anywhere is remembered in `same`,
      without stopping early. */
  function CtEqFrom(a: string, b: string, i: nat, same: bool): (eq: bool)
    requires |a| == |b| && i <= |a|
    ensures eq <==> same && a[i..] == b[i..]
    decreases |a| - i
  {
    if i == |a| then same else CtEqFrom(a, b, i + 1, same && a[i] == b[i])
  }

  function CtEq(a: string, b: string): (eq: bool)
    ensures eq <==> a == b
  {
    |a| == |b| && CtEqFrom(a, b, 0, true)
  }

  /** `verify_credentials`: both comparisons run to the end, and the answer is
      their conjunction. The timing itself is not modelled. */
  function VerifyCredentials(provided: Credentials, expectedUser: string, expectedPass: string): (ok: bool)
    ensures ok <==> provided == Credentials(expectedUser, expectedPass)
  {
    var userMatch := CtEq(provided.username, expectedUser);
    var passMatch := CtEq(provided.password, expectedPass);
    userMatch && passMatch
  }

  /** `HeaderValue::to_str` succeeds: every byte is visible ASCII or a tab. */
  predicate VisibleAscii(v: seq<byte>) {
    forall i | 0 <= i < |v| :: (32 <= v[i] < 127) || v[i] == 9
  }

  /** The bytes of `; charset=utf-8`. */
  const CharsetSuffix: seq<byte> := [0x3B, 0x20, 0x63, 0x68, 0x61, 0x72, 0x73, 0x65, 0x74, 0x3D, 0x75, 0x74, 0x66, 0x2D, 0x38]

  /** The Content-Type fix: a visible-ASCII `text/...` value that does not
      mention `charset` gets `; charset=utf-8` appended; nothing else changes. */
  function FixContentType(h: Headers): (h': Headers)
    ensures h'.Keys == h.Keys
    ensures forall k | k in h && k != "content-type" :: h'[k] == h[k]
    ensures "content-type" in h ==> var v := h["content-type"];
      if VisibleAscii(v) && Text.StartsWith(Chars(v), "text/") && !Text.Contains(Chars(v), "charset")
      then h'["content-type"] == v + CharsetSuffix
      else h'["content-type"] == v
  {
    if "content-type" in h then
      var v := h["content-type"];
      if VisibleAscii(v) && Text.StartsWith(Chars(v), "text/") && !Text.Contains(Chars(v), "charset")
      then h["content-type" := v + CharsetSuffix]
      else h
    else h
  }

  /** The challenge sent with both kinds of 401. */
  function Challenge(): Headers {
    map["www-authenticate" := Ascii("Basic realm=\"WebDAV\"")]
  }

  /** `handle_request`, with `dav` standing for the `DavHandler` built on a
      filesystem scoped to the configured user id. */
  function HandleRequest(config: ServerConfig, req: Request, dav: DavRequest -> DavResponse): (r: Response)
    ensures req.auth.None? ==> r == Response(Unauthorized, Challenge(), Ascii("Unauthorized"))
    ensures req.auth.Some? && !VerifyCredentials(req.auth.value, config.username, config.password) ==>
              r == Response(Unauthorized, Challenge(), Ascii("Invalid credentials"))
    ensures req.auth.Some? && VerifyCredentials(req.auth.value, config.username, config.password) && req.body.None? ==>
              r == Response(BadRequest, map[], Ascii("Bad Request"))
  {
    match req.auth
    case None => Response(Unauthorized, Challenge(), Ascii("Unauthorized"))
    case Some(creds) =>
      if !VerifyCredentials(creds, config.username, config.password) then
        Response(Unauthorized, Challenge(), Ascii("Invalid credentials"))
      else match req.body
        case None => Response(BadRequest, map[], Ascii("Bad Request"))
        case Some(body) =>
          if req.verb == "DELETE" && Text.Trim(req.path, '/') == [] then
            Response(ForbiddenStatus, map[], Ascii("Cannot delete root directory"))
          else
            var resp := dav(DavRequest(req.verb, req.path, body, config.userId));
            Response(resp.status, FixContentType(resp.headers), if resp.body.Some? then resp.body.value else [])
  }

  // ---------------------------------------------------------------------------
  // Properties

  /** The WebDAV handler is reached only with the configured credentials: the
      answer to any other request does not depend on the handler. */
  lemma OnlyAuthenticatedReachDav(config: ServerConfig, req: Request, dav1: DavRequest -> DavResponse,
                                  dav2: DavRequest -> DavResponse)
    requires !(req.auth.Some? && VerifyCredentials(req.auth.value, config.username, config.password))
    ensures HandleRequest(config, req, dav1) == HandleRequest(config, req, dav2)
    ensures HandleRequest(config, req, dav1).status == Unauthorized
    ensures "www-authenticate" in HandleRequest(config, req, dav1).headers
  {
  }

  /** An authenticated DELETE of `/` (or of `//`, or of the empty path) is
      refused with 403 without reaching the handler. */
  lemma RootDeleteForbidden(config: ServerConfig, req: Request, dav: DavRequest -> DavResponse)
    requires req.auth == Some(Credentials(config.username, config.password)) && req.body.Some?
    requires req.verb == "DELETE" && forall i | 0 <= i < |req.path| :: req.path[i] == '/'
    ensures HandleRequest(config, req, dav) == Response(ForbiddenStatus, map[], Ascii("Cannot delete root directory"))
  {
    Text.TrimEmpty(req.path, '/');
  }

  /** An authenticated request with a body that is not a DELETE of the root
      goes to the handler under the configured user id; its status and body
      come back unchanged and its headers with the Content-Type fix. */
  lemma PassedToDav(config: ServerConfig, req: Request, dav: DavRequest -> DavResponse)
    requires req.auth == Some(Credentials(config.username, config.password)) && req.body.Some?
    requires req.verb != "DELETE" || exists i | 0 <= i < |req.path| :: req.path[i] != '/'
    ensures var resp := dav(DavRequest(req.verb, req.path, req.body.value, config.userId));
      HandleRequest(config, req, dav)
        == Response(resp.status, FixContentType(resp.headers), if resp.body.Some? then resp.body.value else [])
  {
    Text.TrimEmpty(req.path, '/');
  }

  /** "charset" occurs in the suffix the fix appends. */
  lemma SuffixMentionsCharset(v: seq<byte>)
    ensures Text.Contains(Chars(v + CharsetSuffix), "charset")
  {
    var s := Chars(v + CharsetSuffix);
    assert s[|v| + 2..|v| + 9] == "charset";
    assert Text.OccursAt(s, "charset", |v| + 2);
  }

  /** The suffix keeps the value visible ASCII and the `text/` prefix. */
  lemma SuffixKeepsShape(v: seq<byte>)
    requires VisibleAscii(v) && Text.StartsWith(Chars(v), "text/")
    ensures VisibleAscii(v + CharsetSuffix)
    ensures Text.StartsWith(Chars(v + CharsetSuffix), "text/")
  {
    assert VisibleAscii(CharsetSuffix);
    assert Chars(v + CharsetSuffix)[..5] == Chars(v)[..5];
  }

  /** Fixing twice is fixing once: the appended suffix mentions `charset`. */
  lemma FixContentTypeIdempotent(h: Headers)
    ensures FixContentType(FixContentType(h)) == FixContentType(h)
  {
    if "content-type" in h {
      SuffixMentionsCharset(h["content-type"]);
    }
  }

  /** After the fix, every visible-ASCII `text/...` Content-Type mentions a charset. */
  lemma FixedTextHasCharset(h: Headers)
    requires "content-type" in h && VisibleAscii(h["content-type"]) && Text.StartsWith(Chars(h["content-type"]), "text/")
    ensures Text.Contains(Chars(FixContentType(h)["content-type"]), "charset")
  {
    SuffixMentionsCharset(h["content-type"]);
  }
}

=== FILE: davfile.dfy ===
/** `SqliteDavFile`: an open note. Reads, writes and seeks act on an in-memory
    copy of the content behind a `std::io::Cursor`; `flush` writes the copy
    back through `create_or_update_note` when the file was opened writable. */
module DavFiles {
  import opened Types
  import opened Store
  import opened Filesystem
  import opened Effects
  import Timestamps
  import Utf8

  const U64Modulus: nat := Timestamps.U64Modulus

  type U64 = x: int | 0 <= x < U64Modulus
  type I64 = x: int | -Timestamps.I64Max - 1 <= x <= Timestamps.I64Max

  /** The metadata the server hands out (`NoteMetaData`, `SqliteMetaData`);
      times are seconds after the epoch. */
  datatype Meta = Meta(isDir: bool, len: nat, modified: nat, created: nat)

  /** `parse_datetime`, with `now` standing for `SystemTime::now()`. */
  function TimeOf(s: string, now: nat): (t: nat)
    ensures Timestamps.ParseDatetime(s).Some? ==> t == Timestamps.ParseDatetime(s).value
    ensures Timestamps.ParseDatetime(s).None? ==> t == now
  {
    match Timestamps.ParseDatetime(s)
    case Some(t) => t
    case None => now
  }

  /** The file: the note it was opened on, the cursor's buffer and position,
      whether writes are allowed, and the parent to write back under. */
  datatype DavFile = DavFile(note: NoteData, buf: seq<byte>, pos: nat, writable: bool, parent: Option<Id>)

  /** `SqliteDavFile::new`: read-only, at the start of the note's bytes. */
  function New(note: NoteData): (f: DavFile)
    ensures f.note == note && Read(f, |note.content|).1 == note.content
    ensures forall data :: Write(f, data) == Err(Forbidden)
  {
    DavFile(note, note.content, 0, false, None)
  }

  /** `SqliteDavFile::new_writable`: writable, at the start of the note's
      bytes, which stay in the buffer until overwritten. */
  function NewWritable(note: NoteData, parent: Option<Id>): (f: DavFile)
    ensures f.note == note && f.parent == parent && Read(f, |note.content|).1 == note.content
    ensures forall data :: Write(f, data).Ok?
  {
    DavFile(note, note.content, 0, true, parent)
  }

  /** `DavFile::metadata`: the length of the note as opened, not of the buffer. */
  function FileMetadata(f: DavFile, now: nat): (m: Meta)
    ensures !m.isDir && m.len == |f.note.content|
    ensures m.modified == TimeOf(f.note.updated, now) && m.created == TimeOf(f.note.created, now)
  {
    Meta(false, |f.note.content|, TimeOf(f.note.updated, now), TimeOf(f.note.created, now))
  }

  function Min(a: nat, b: nat): nat {
    if a <= b then a else b
  }

  /** `read_bytes(count)`: up to `count` bytes from the position, fewer at the
      end of the buffer and none past it; the position moves past them. */
  function Read(f: DavFile, count: nat): (r: (DavFile, seq<byte>))
    ensures var (f', bytes) := r;
      && |bytes| == (if f.pos < |f.buf| then Min(count, |f.buf| - f.pos) else 0)
      && (forall i | 0 <= i < |bytes| :: bytes[i] == f.buf[f.pos + i])
      && f' == f.(pos := f.pos + |bytes|)
  {
    var start := Min(f.pos, |f.buf|);
    var n := Min(count, |f.buf| - start);
    (f.(pos := f.pos + n), f.buf[start..start + n])
  }

  /** `std::io::SeekFrom`. */
  datatype SeekFrom = Start(offset: U64) | End(delta: I64) | Current(delta: I64)

  /** `seek`: `Start` sets the position; `End` and `Current` add a signed
      offset to the length or the position, and a result below 0 or beyond
      `u64` is an error that leaves the position alone. */
  function Seek(f: DavFile, from: SeekFrom): (r: Result<(DavFile, U64)>)
    ensures r.Ok? ==> r.value.0 == f.(pos := r.value.1)
    ensures r.Err? ==> r.error == GeneralFailure
    ensures from.Start? ==> r == Ok((f.(pos := from.offset), from.offset))
    ensures from.End? ==> (r.Ok? <==> 0 <= |f.buf| + from.delta < U64Modulus)
                          && (r.Ok? ==> r.value.1 == |f.buf| + from.delta)
    ensures from.Current? ==> (r.Ok? <==> 0 <= f.pos + from.delta < U64Modulus)
                              && (r.Ok? ==> r.value.1 == f.pos + from.delta)
  {
    match from
    case Start(n) => Ok((f.(pos := n), n))
    case _ =>
      var target := (if from.End? then |f.buf| else f.pos) + from.delta;
      if 0 <= target < U64Modulus then Ok((f.(pos := target), target)) else Err(GeneralFailure)
  }

  /** `Cursor<Vec<u8>>::write_all`: no bytes leave the cursor untouched;
      otherwise the buffer is zero-filled up to the position if it is
      shorter, `data` is written over it from the position, extending it as
      needed, and the position moves past `data`. */
  function WriteAll(buf: seq<byte>, pos: nat, data: seq<byte>): (r: (seq<byte>, nat))
    ensures |data| == 0 ==> r == (buf, pos)
    ensures |data| > 0 ==> var (buf', pos') := r;
      && pos' == pos + |data|
      && |buf'| == (if |buf| < pos' then pos' else |buf|)
      && (forall i | 0 <= i < pos :: buf'[i] == (if i < |buf| then buf[i] else 0))
      && (forall i | 0 <= i < |data| :: buf'[pos + i] == data[i])
      && (forall i | pos' <= i < |buf'| :: buf'[i] == buf[i])
  {
    if |data| == 0 then (buf, pos)
    else
      var padded := if pos <= |buf| then buf else buf + seq(pos - |buf|, _ => 0 as byte);
      var end := pos + |data|;
      var tail := if end < |padded| then padded[end..] else [];
      (padded[..pos] + data + tail, end)
  }

  /** `write_bytes` and `write_buf`: refused on a read-only file, otherwise a
      `write_all` of every byte given. */
  function Write(f: DavFile, data: seq<byte>): (r: Result<DavFile>)
    ensures !f.writable <==> r == Err(Forbidden)
    ensures r.Ok? ==> var (buf', pos') := WriteAll(f.buf, f.pos, data);
      r.value == f.(buf := buf', pos := pos')
  {
    if !f.writable then Err(Forbidden)
    else
      var (buf', pos') := WriteAll(f.buf, f.pos, data);
      Ok(f.(buf := buf', pos := pos'))
  }

  /** `flush`: nothing to do on a read-only file; a buffer that is not UTF-8 is
      a `GeneralFailure`; otherwise the buffer becomes the content of the note
      `title.syntax` under the parent the file was opened with. */
  ghost function Flush(f: DavFile, db: Db, u: UserId, freshId: Id, now: nat): (r: Result<Db>)
    ensures !f.writable ==> r == Ok(db)
    ensures f.writable && !Utf8.Valid(f.buf) ==> r == Err(GeneralFailure)
    ensures f.writable && Utf8.Valid(f.buf) ==>
      var w := CreateOrUpdateNote(db, u, f.parent, f.note.title, f.note.syntax, f.buf, freshId, now);
      (r.Ok? <==> w.Ok?) && (r.Ok? ==> r.value == w.value.0)
  {
    if !f.writable then Ok(db)
    else if !Utf8.Valid(f.buf) then Err(GeneralFailure)
    else
      var w :- CreateOrUpdateNote(db, u, f.parent, f.note.title, f.note.syntax, f.buf, freshId, now);
      Ok(w.0)
  }

  // ---------------------------------------------------------------------------
  // Properties

  /** A new file, read from the start in one go, yields the note's content. */
  lemma ReadNew(note: NoteData, parent: Option<Id>, count: nat)
    requires count >= |note.content|
    ensures Read(New(note), count).1 == note.content
    ensures Read(NewWritable(note, parent), count).1 == note.content
  {
  }

  /** Two consecutive reads return what one read of both counts returns. */
  lemma ReadTwice(f: DavFile, a: nat, b: nat)
    ensures Read(Read(f, a).0, b).0 == Read(f, a + b).0
    ensures Read(f, a).1 + Read(Read(f, a).0, b).1 == Read(f, a + b).1
  {
    ReadLengths(f, a, b);
    var (f1, x) := Read(f, a);
    var (f2, y) := Read(f1, b);
    var z := Read(f, a + b).1;
    forall i | 0 <= i < |z|
      ensures (x + y)[i] == z[i]
    {
      if i >= |x| {
        assert (x + y)[i] == y[i - |x|] == f.buf[f1.pos + (i - |x|)];
      }
    }
    assert x + y == z;
  }

  /** The byte counts of two consecutive reads add up to that of one read
      of both counts. */
  lemma ReadLengths(f: DavFile, a: nat, b: nat)
    ensures Read(Read(f, a).0, b).0 == Read(f, a + b).0
    ensures |Read(f, a).1| + |Read(Read(f, a).0, b).1| == |Read(f, a + b).1|
  {
    var rest := |f.buf| - f.pos;
    var n1, n2, n := |Read(f, a).1|, |Read(Read(f, a).0, b).1|, |Read(f, a + b).1|;
    if f.pos >= |f.buf| {
      assert n1 == n2 == n == 0;
    } else if a >= rest {
      assert n1 == rest && n2 == 0 && n == rest;
    } else {
      assert n1 == a && n2 == Min(b, rest - a) && n == a + Min(b, rest - a);
    }
  }

  /** What a write puts down can be read back after seeking to where it began. */
  lemma ReadBackWrite(f: DavFile, data: seq<byte>)
    requires f.writable && f.pos < U64Modulus
    ensures var w := Write(f, data);
      && w.Ok?
      && Seek(w.value, Start(f.pos)).Ok?
      && Read(Seek(w.value, Start(f.pos)).value.0, |data|).1 == data
  {
  }

  /** A later write of the same length at the same place replaces an earlier
      one: only the last write at a position is seen. */
  lemma WriteOverwrites(buf: seq<byte>, pos: nat, a: seq<byte>, b: seq<byte>)
    requires |a| == |b| > 0
    ensures WriteAll(WriteAll(buf, pos, a).0, pos, b) == WriteAll(buf, pos, b)
  {
    var (b1, p1) := WriteAll(buf, pos, a);
    var (b2, p2) := WriteAll(b1, pos, b);
    var (b3, p3) := WriteAll(buf, pos, b);
    assert b2 == b3;
  }

  /** A read-only file refuses every write and has nothing to flush. */
  lemma ReadOnlyFile(note: NoteData, data: seq<byte>, db: Db, u: UserId, freshId: Id, now: nat)
    ensures Write(New(note), data) == Err(Forbidden)
    ensures Flush(New(note), db, u, freshId, now) == Ok(db)
  {
  }

  /** Writing a file opened on an existing note overwrites only as many bytes
      as are written: a shorter write keeps the old tail, and the flushed note
      holds it. */
  lemma ShortWriteKeepsTail(note: NoteData, parent: Option<Id>, data: seq<byte>)
    requires |data| < |note.content|
    ensures var w := Write(NewWritable(note, parent), data).value;
      w.buf == data + note.content[|data|..]
  {
    var w := Write(NewWritable(note, parent), data).value;
    if |data| > 0 {
      assert w.buf == data + note.content[|data|..];
    }
  }

  /** Flushing a writable file on a well-formed store makes its buffer the
      content of the note at its key, as `get_note` then reports. */
  lemma FlushStoresBuffer(f: DavFile, db: Db, u: UserId, freshId: Id, now: nat)
    requires Wf(db) && OwnedParent(db.folders, f.parent, u)
    requires f.writable && Flush(f, db, u, freshId, now).Ok?
    ensures var db' := Flush(f, db, u, freshId, now).value;
      && GetNote(db', u, f.parent, f.note.title, f.note.syntax).Ok?
      && GetNote(db', u, f.parent, f.note.title, f.note.syntax).value.content == f.buf
  {
    GetAfterWrite(db, u, f.parent, f.note.title, f.note.syntax, f.buf, freshId, now);
  }
}

=== FILE: descendants.dfy ===
/** What `is_descendant` computes: it follows the parent chain of one user's
    folders, so it finds exactly the ancestors of a folder on a store whose rows
    point only at folders of their own user and whose chains end. */
module Descendants {
  import opened Types
  import opened Store
  import opened Filesystem

  /** On a scoped store, a chain that starts at the root or at a folder of `u`
      only ever visits the root or folders of `u`. */
  lemma {:induction false} ChainOwned(db: Db, x: Option<Id>, u: UserId, k: nat)
    requires Scoped(db) && OwnedParent(db.folders, x, u)
    ensures OwnedParent(db.folders, Up(db.folders, x, k), u)
    decreases k
  {
    if k > 0 && x.Some? {
      ChainOwned(db, db.folders[x.value].parent, u, k - 1);
    }
  }

  /** A chain that is still at a folder after `m` steps was at one at every earlier step. */
  lemma {:induction false} UpDefinedBefore(fs: map<Id, Folder>, x: Option<Id>, m: nat)
    requires Up(fs, x, m).Some?
    ensures forall n: nat | n <= m :: Up(fs, x, n).Some?
    decreases m
  {
    if m > 0 {
      var p := fs[x.value].parent;
      UpDefinedBefore(fs, p, m - 1);
      forall n: nat | n <= m
        ensures Up(fs, x, n).Some?
      {
        if n > 0 {
          assert Up(fs, x, n) == Up(fs, p, n - 1);
        }
      }
    }
  }

  /** Going `k` steps to `y`, then on from `y` to `a`, goes from `x` to `a`. */
  lemma ReachesVia(fs: map<Id, Folder>, x: Option<Id>, k: nat, y: Option<Id>, a: Id)
    requires Up(fs, x, k) == y
    ensures Reaches(fs, y, a) ==> Reaches(fs, x, a)
  {
    if Reaches(fs, y, a) {
      var m: nat :| Up(fs, y, m) == Some(a);
      UpAdd(fs, x, k, m);
    }
  }

  /** Every `true` of the walk is an ancestor at fewer steps than the fuel. */
  lemma {:induction false} WalkSound(fs: map<Id, Folder>, u: UserId, cur: Option<Id>, a: Id, fuel: nat)
    requires DescendantWalk(fs, u, cur, a, fuel)
    ensures exists k: nat :: k < fuel && Up(fs, cur, k) == Some(a)
    decreases fuel
  {
    var id := cur.value;
    if id == a {
      assert Up(fs, cur, 0) == Some(a);
    } else {
      assert id in fs && fs[id].user == u;
      var next := fs[id].parent;
      WalkSound(fs, u, next, a, fuel - 1);
      var k: nat :| k < fuel - 1 && Up(fs, next, k) == Some(a);
      assert Up(fs, cur, k + 1) == Some(a);
    }
  }

  /** On a scoped store, the walk from a folder of `u` finds every ancestor it
      has fuel to reach. */
  lemma {:induction false} WalkComplete(db: Db, u: UserId, cur: Option<Id>, a: Id, k: nat, fuel: nat)
    requires Scoped(db) && OwnedParent(db.folders, cur, u)
    requires Up(db.folders, cur, k) == Some(a) && k < fuel
    ensures DescendantWalk(db.folders, u, cur, a, fuel)
    decreases k
  {
    if k > 0 && cur.value != a {
      var next := db.folders[cur.value].parent;
      WalkComplete(db, u, next, a, k - 1, fuel - 1);
    }
  }

  /** `is_descendant(c, a)` only answers `true` when `a` is on the chain of `c`. */
  lemma IsDescendantSound(db: Db, u: UserId, c: Id, a: Id)
    requires IsDescendant(db, u, c, a)
    ensures Reaches(db.folders, Some(c), a)
  {
    WalkSound(db.folders, u, Some(c), a, |db.folders| + 1);
  }

  /** On a well-formed store, `is_descendant(c, a)` answers `true` for every
      ancestor `a` of a folder `c` of `u`: the fuel is enough. */
  lemma IsDescendantComplete(db: Db, u: UserId, c: Id, a: Id)
    requires Scoped(db) && Acyclic(db.folders)
    requires c in db.folders && db.folders[c].user == u
    requires Reaches(db.folders, Some(c), a)
    ensures IsDescendant(db, u, c, a)
  {
    var fs := db.folders;
    var k: nat :| Up(fs, Some(c), k) == Some(a);
    ChainBound(fs, Some(c));
    UpDefinedBefore(fs, Some(c), k);
    assert k < |fs| + 1;
    WalkComplete(db, u, Some(c), a, k, |fs| + 1);
  }

  /** The two directions together. */
  lemma IsDescendantIff(db: Db, u: UserId, c: Id, a: Id)
    requires Wf(db) && c in db.folders && db.folders[c].user == u
    ensures IsDescendant(db, u, c, a) <==> Reaches(db.folders, Some(c), a)
  {
    if IsDescendant(db, u, c, a) {
      IsDescendantSound(db, u, c, a);
    }
    if Reaches(db.folders, Some(c), a) {
      IsDescendantComplete(db, u, c, a);
    }
  }

  /** `rename_folder` refuses a move exactly when the new parent is the folder
      itself or lies below it: on a well-formed store, a folder of `u` that
      survives the `NotFound` and `Exists` checks is forbidden to move under a
      folder `p` of `u` if and only if `p`'s chain reaches it. */
  lemma RenameFolderForbiddenIff(db: Db, u: UserId, f: Id, p: Id, title: string, now: nat)
    requires Wf(db) && f in db.folders && db.folders[f].user == u
    requires p in db.folders && db.folders[p].user == u
    requires forall d :: IsFolderMatch(db, u, Some(p), title, d) ==> d == f
    ensures RenameFolder(db, u, f, Some(p), title, now) == Err(Forbidden) <==> Reaches(db.folders, Some(p), f)
    ensures !Reaches(db.folders, Some(p), f) ==> RenameFolder(db, u, f, Some(p), title, now).Ok?
  {
    IsDescendantIff(db, u, p, f);
    assert Up(db.folders, Some(p), 0) == Some(p);
  }
}

=== FILE: dispatch.dfy ===
/** The `DavFileSystem` methods of `SqliteFs`: each resolves its path(s) and
    calls one store operation, turning the kind of thing a path names into
    `Forbidden` where the method does not apply to it. */
module Dispatch {
  import opened Types
  import opened Store
  import opened Filesystem
  import opened Resolution
  import opened Invariants
  import opened Effects
  import opened DavFiles
  import Timestamps

  /** The `OpenOptions` flags `open` looks at. */
  datatype OpenOptions = OpenOptions(write: bool, append: bool, truncate: bool, create: bool, createNew: bool)

  /** An entry of a listing: its name and metadata. */
  datatype Listed = Listed(name: string, meta: Meta)

  /** The folders along a path before its last segment, as `create_dir`,
      `open` (when creating) and `rename` walk them. */
  ghost function TargetParent(db: Db, u: UserId, segs: seq<string>): (r: Result<Option<Id>>)
    requires |segs| > 0
    ensures r.Err? ==> r.error == NotFound
    ensures r.Ok? ==> OwnedParent(db.folders, r.value, u)
  {
    match WalkFolders(db, u, segs[..|segs| - 1])
    case None => Err(NotFound)
    case Some(p) =>
      WalkSound(db, u, segs[..|segs| - 1]);
      Ok(p)
  }

  /** The create branch of `open` for a path with segments `segs`: the last
      segment must have an extension (else `Forbidden`) and the folders before
      it must exist (else `NotFound`); then an empty note is written there and
      a writable file on it is returned. */
  ghost function CreateAt(db: Db, u: UserId, segs: seq<string>, freshId: Id, now: nat): (r: Result<(Db, DavFile)>)
    requires |segs| > 0
    ensures ParseFilename(segs[|segs| - 1]).None? ==> r == Err(Forbidden)
    ensures ParseFilename(segs[|segs| - 1]).Some? && TargetParent(db, u, segs).Err? ==> r == Err(NotFound)
    ensures ParseFilename(segs[|segs| - 1]).Some? && TargetParent(db, u, segs).Ok? ==>
      var (t, s) := ParseFilename(segs[|segs| - 1]).value;
      var p := TargetParent(db, u, segs).value;
      var w := CreateOrUpdateNote(db, u, p, t, s, [], freshId, now);
      var ts := Timestamps.CurrentTimestamp(now);
      && (w.Err? ==> r == Err(w.error))
      && (w.Ok? ==> r == Ok((w.value.0, NewWritable(NoteData(w.value.1, t, [], s, ts, ts), p))))
    ensures r.Ok? ==> OwnedParent(r.value.0.folders, r.value.1.parent, u) && r.value.1.writable
  {
    match ParseFilename(segs[|segs| - 1])
    case None => Err(Forbidden)
    case Some((t, s)) =>
      var p :- TargetParent(db, u, segs);
      var (db', id) :- CreateOrUpdateNote(db, u, p, t, s, [], freshId, now);
      var ts := Timestamps.CurrentTimestamp(now);
      Ok((db', NewWritable(NoteData(id, t, [], s, ts, ts), p)))
  }

  /** `open`: an existing note opens read-only, or writable when `write` or
      `append` is set; a folder or the root is `Forbidden`; a missing path
      without `create` or `create_new` is `NotFound`, and with one of them is
      created as `CreateAt` describes. */
  ghost function Open(db: Db, u: UserId, decode: string -> string, path: string, opts: OpenOptions,
                      freshId: Id, now: nat): (r: Result<(Db, DavFile)>)
    ensures r.Ok? ==> OwnedParent(r.value.0.folders, r.value.1.parent, u)
    ensures r.Ok? && r.value.1.writable ==> opts.write || opts.append || opts.create || opts.createNew
    ensures (forall i | 0 <= i < |path| :: path[i] == '/') ==> r == Err(Forbidden)
    ensures ResolvePath(db, u, decode, path).Ok? && !ResolvePath(db, u, decode, path).value.NoteAt? ==>
              r == Err(Forbidden)
    ensures ResolvePath(db, u, decode, path).Err? && !(opts.create || opts.createNew) ==> r == Err(NotFound)
    ensures && ResolvePath(db, u, decode, path).Err? && (opts.create || opts.createNew)
            && PathSegments(path, decode).Some? ==>
              r == CreateAt(db, u, PathSegments(path, decode).value, freshId, now)
    ensures forall p, t, s :: ResolvePath(db, u, decode, path) == Ok(NoteAt(p, t, s)) ==>
      && (GetNote(db, u, p, t, s).Err? ==> r == Err(NotFound))
      && (GetNote(db, u, p, t, s).Ok? ==>
            && r.Ok? && r.value.0 == db && r.value.1.note == GetNote(db, u, p, t, s).value
            && (r.value.1.writable <==> opts.write || opts.append)
            && (r.value.1.writable ==> r.value.1.parent == p))
  {
    match ResolvePath(db, u, decode, path)
    case Ok(NoteAt(p, t, s)) =>
      var note :- GetNote(db, u, p, t, s);
      if opts.write || opts.append then Ok((db, NewWritable(note, p))) else Ok((db, New(note)))
    case Ok(_) => Err(Forbidden)
    case Err(e) =>
      if !(opts.create || opts.createNew) then Err(e)
      else match PathSegments(path, decode)
        case None => Err(Forbidden)
        case Some(segs) => CreateAt(db, u, segs, freshId, now)
  }

  /** One listing entry per row: a folder under its title with length 0, a
      note as `title.syntax` with the length of its content. */
  function ListedOf(e: DirEntry, now: nat): Listed {
    match e
    case FolderEntry(_, f) => Listed(f.title, Meta(true, 0, TimeOf(f.updated, now), TimeOf(f.created, now)))
    case NoteEntry(_, n) =>
      Listed(n.title + "." + n.syntax, Meta(false, |n.content|, TimeOf(n.updated, now), TimeOf(n.created, now)))
  }

  /** The entries of a listing, one per row: each row of `ListEntries` maps to
      what the client sees of it, so rows that look alike stay apart. */
  function Listing(rows: set<DirEntry>, now: nat): (l: map<DirEntry, Listed>)
    ensures l.Keys == rows && |l| == |rows|
    ensures forall e | e in rows :: l[e] == ListedOf(e, now)
  {
    map e | e in rows :: ListedOf(e, now)
  }

  /** `read_dir`: the children of the root or of a folder, one entry per row;
      a note is `Forbidden`. */
  ghost function ReadDir(db: Db, u: UserId, decode: string -> string, path: string, now: nat)
    : (r: Result<map<DirEntry, Listed>>)
    ensures ResolvePath(db, u, decode, path).Ok? && ResolvePath(db, u, decode, path).value.NoteAt? ==> r == Err(Forbidden)
    ensures ResolvePath(db, u, decode, path).Err? ==> r == Err(NotFound)
    ensures ResolvePath(db, u, decode, path) == Ok(Root) ==> r == Ok(Listing(ListEntries(db, u, None), now))
    ensures forall id :: ResolvePath(db, u, decode, path) == Ok(FolderAt(id)) ==>
              r == Ok(Listing(ListEntries(db, u, Some(id)), now))
  {
    var resolved :- ResolvePath(db, u, decode, path);
    match resolved
    case NoteAt(_, _, _) => Err(Forbidden)
    case Root => Ok(Listing(ListEntries(db, u, None), now))
    case FolderAt(id) => Ok(Listing(ListEntries(db, u, Some(id)), now))
  }

  /** `metadata`: the root is a directory stamped `now`; a folder a directory
      with its own times; a note a file with the length of its content. */
  ghost function Metadata(db: Db, u: UserId, decode: string -> string, path: string, now: nat): (r: Result<Meta>)
    ensures r.Err? ==> r.error == NotFound
    ensures ResolvePath(db, u, decode, path) == Ok(Root) ==> r == Ok(Meta(true, 0, now, now))
    ensures r.Ok? ==> ResolvePath(db, u, decode, path).Ok?
                      && (r.value.isDir <==> !ResolvePath(db, u, decode, path).value.NoteAt?)
    ensures r.Ok? && !r.value.isDir ==> var res := ResolvePath(db, u, decode, path).value;
      r.value.len == |GetNote(db, u, res.parent, res.title, res.syntax).value.content|
    ensures forall id :: ResolvePath(db, u, decode, path) == Ok(FolderAt(id)) ==>
      r == Ok(Meta(true, 0, TimeOf(db.folders[id].updated, now), TimeOf(db.folders[id].created, now)))
    ensures forall p, t, s :: ResolvePath(db, u, decode, path) == Ok(NoteAt(p, t, s)) ==>
      && (GetNote(db, u, p, t, s).Err? ==> r == Err(NotFound))
      && (GetNote(db, u, p, t, s).Ok? ==> var n := GetNote(db, u, p, t, s).value;
            r == Ok(Meta(false, |n.content|, TimeOf(n.updated, now), TimeOf(n.created, now))))
  {
    var resolved :- ResolvePath(db, u, decode, path);
    match resolved
    case Root => Ok(Meta(true, 0, now, now))
    case FolderAt(id) =>
      if id in db.folders && db.folders[id].user == u then
        Ok(Meta(true, 0, TimeOf(db.folders[id].updated, now), TimeOf(db.folders[id].created, now)))
      else Err(NotFound)
    case NoteAt(p, t, s) =>
      var note :- GetNote(db, u, p, t, s);
      Ok(Meta(false, |note.content|, TimeOf(note.updated, now), TimeOf(note.created, now)))
  }

  /** `get_props`: no dead properties for any path, found or not. */
  ghost function GetProps(db: Db, u: UserId, decode: string -> string, path: string): (r: Result<seq<string>>)
    ensures r == Ok([])
  {
    match ResolvePath(db, u, decode, path)
    case Ok(_) => Ok([])
    case Err(NotFound) => Ok([])
    case Err(e) => Err(e)
  }

  /** `create_dir`: the root is `Forbidden`, a missing folder on the way is
      `NotFound`, and otherwise `create_folder` under the last folder. */
  ghost function CreateDir(db: Db, u: UserId, decode: string -> string, path: string, freshId: Id, now: nat): (r: Result<Db>)
    ensures (forall i | 0 <= i < |path| :: path[i] == '/') <==> r == Err(Forbidden)
    ensures PathSegments(path, decode).Some? ==> var segs := PathSegments(path, decode).value;
      && (TargetParent(db, u, segs).Err? ==> r == Err(NotFound))
      && (TargetParent(db, u, segs).Ok? ==>
            var c := CreateFolder(db, u, TargetParent(db, u, segs).value, segs[|segs| - 1], freshId, now);
            (c.Ok? ==> r == Ok(c.value.0)) && (c.Err? ==> r == Err(c.error)))
  {
    match PathSegments(path, decode)
    case None => Err(Forbidden)
    case Some(segs) =>
      var p :- TargetParent(db, u, segs);
      var (db', _) :- CreateFolder(db, u, p, segs[|segs| - 1], freshId, now);
      Ok(db')
  }

  /** `remove_file`: deletes a note; a folder or the root is `Forbidden`. */
  ghost function RemoveFile(db: Db, u: UserId, decode: string -> string, path: string): (r: Result<Db>)
    ensures ResolvePath(db, u, decode, path).Ok? && !ResolvePath(db, u, decode, path).value.NoteAt? ==> r == Err(Forbidden)
    ensures ResolvePath(db, u, decode, path).Err? ==> r == Err(NotFound)
    ensures r.Ok? ==> var res := ResolvePath(db, u, decode, path).value;
      res.NoteAt? && r == DeleteNote(db, u, res.parent, res.title, res.syntax)
    ensures forall p, t, s :: ResolvePath(db, u, decode, path) == Ok(NoteAt(p, t, s)) ==> r == DeleteNote(db, u, p, t, s)
  {
    var resolved :- ResolvePath(db, u, decode, path);
    match resolved
    case NoteAt(p, t, s) => DeleteNote(db, u, p, t, s)
    case _ => Err(Forbidden)
  }

  /** `remove_dir`: deletes a folder with everything below it; a note or the
      root is `Forbidden`. */
  ghost function RemoveDir(db: Db, u: UserId, decode: string -> string, path: string): (r: Result<Db>)
    ensures ResolvePath(db, u, decode, path).Ok? && !ResolvePath(db, u, decode, path).value.FolderAt? ==> r == Err(Forbidden)
    ensures ResolvePath(db, u, decode, path).Err? ==> r == Err(NotFound)
    ensures r.Ok? ==> var res := ResolvePath(db, u, decode, path).value;
      res.FolderAt? && r == DeleteFolder(db, u, res.id)
    ensures forall id :: ResolvePath(db, u, decode, path) == Ok(FolderAt(id)) ==> r == DeleteFolder(db, u, id)
  {
    var resolved :- ResolvePath(db, u, decode, path);
    match resolved
    case FolderAt(id) => DeleteFolder(db, u, id)
    case _ => Err(Forbidden)
  }

  /** `rename`: the destination must not be the root (`Forbidden`) and its
      folders must exist (`NotFound`), both checked before the source is
      resolved; a note moves to the destination's `title.syntax` (no extension
      is `Forbidden`), a folder to the destination's last segment as title, and
      the root cannot move. */
  ghost function Rename(db: Db, u: UserId, decode: string -> string, src: string, dst: string, now: nat): (r: Result<Db>)
    ensures (forall i | 0 <= i < |dst| :: dst[i] == '/') ==> r == Err(Forbidden)
    ensures PathSegments(dst, decode).Some? && TargetParent(db, u, PathSegments(dst, decode).value).Err? ==>
              r == Err(NotFound)
    ensures (&& PathSegments(dst, decode).Some? && TargetParent(db, u, PathSegments(dst, decode).value).Ok?
             && ResolvePath(db, u, decode, src) == Ok(Root)) ==> r == Err(Forbidden)
    ensures r.Ok? ==> ResolvePath(db, u, decode, src).Ok? && !ResolvePath(db, u, decode, src).value.Root?
    ensures PathSegments(dst, decode).Some? && TargetParent(db, u, PathSegments(dst, decode).value).Ok? ==>
      var segs := PathSegments(dst, decode).value;
      var dp := TargetParent(db, u, segs).value;
      var source := ResolvePath(db, u, decode, src);
      && (source.Err? ==> r == Err(NotFound))
      && (source.Ok? && source.value.NoteAt? && ParseFilename(segs[|segs| - 1]).None? ==> r == Err(Forbidden))
      && (source.Ok? && source.value.NoteAt? && ParseFilename(segs[|segs| - 1]).Some? ==>
            var (dt, ds) := ParseFilename(segs[|segs| - 1]).value;
            r == RenameNote(db, u, source.value.parent, source.value.title, source.value.syntax, dp, dt, ds, now))
      && (source.Ok? && source.value.FolderAt? ==> r == RenameFolder(db, u, source.value.id, dp, segs[|segs| - 1], now))
  {
    match PathSegments(dst, decode)
    case None => Err(Forbidden)
    case Some(segs) =>
      var dstName := segs[|segs| - 1];
      var dp :- TargetParent(db, u, segs);
      var source :- ResolvePath(db, u, decode, src);
      match source
      case NoteAt(sp, st, ss) =>
        (match ParseFilename(dstName)
         case None => Err(Forbidden)
         case Some((dt, ds)) => RenameNote(db, u, sp, st, ss, dp, dt, ds, now))
      case FolderAt(id) => RenameFolder(db, u, id, dp, dstName, now)
      case Root => Err(Forbidden)
  }

  // ---------------------------------------------------------------------------
  // Well-formedness of the whole interface

  /** Every mutating method keeps the tree well formed. */
  lemma OpenKeepsWf(db: Db, u: UserId, decode: string -> string, path: string, opts: OpenOptions, freshId: Id, now: nat)
    requires Wf(db) && Open(db, u, decode, path, opts, freshId, now).Ok?
    ensures Wf(Open(db, u, decode, path, opts, freshId, now).value.0)
  {
    if ResolvePath(db, u, decode, path).Err? {
      var p, t, s := OpenCreateStep(db, u, decode, path, opts, freshId, now);
      CreateOrUpdateNoteKeepsWf(db, u, p, t, s, [], freshId, now);
    }
  }

  /** A successful `open` of a path that does not resolve creates the empty
      note `t.s` under the destination's parent folder `p`. */
  lemma OpenCreateStep(db: Db, u: UserId, decode: string -> string, path: string, opts: OpenOptions,
                       freshId: Id, now: nat) returns (p: Option<Id>, t: string, s: string)
    requires ResolvePath(db, u, decode, path).Err? && Open(db, u, decode, path, opts, freshId, now).Ok?
    ensures PathSegments(path, decode).Some?
    ensures var segs := PathSegments(path, decode).value;
      && TargetParent(db, u, segs) == Ok(p)
      && ParseFilename(segs[|segs| - 1]) == Some((t, s))
    ensures OwnedParent(db.folders, p, u)
    ensures CreateOrUpdateNote(db, u, p, t, s, [], freshId, now).Ok?
    ensures var (db', id) := CreateOrUpdateNote(db, u, p, t, s, [], freshId, now).value;
      var ts := Timestamps.CurrentTimestamp(now);
      Open(db, u, decode, path, opts, freshId, now).value == (db', NewWritable(NoteData(id, t, [], s, ts, ts), p))
  {
    var segs := PathSegments(path, decode).value;
    var name := ParseFilename(segs[|segs| - 1]).value;
    t, s := name.0, name.1;
    p := TargetParent(db, u, segs).value;
  }

  lemma CreateDirKeepsWf(db: Db, u: UserId, decode: string -> string, path: string, freshId: Id, now: nat)
    requires Wf(db) && CreateDir(db, u, decode, path, freshId, now).Ok?
    ensures Wf(CreateDir(db, u, decode, path, freshId, now).value)
  {
    var segs := PathSegments(path, decode).value;
    CreateFolderKeepsWf(db, u, TargetParent(db, u, segs).value, segs[|segs| - 1], freshId, now);
  }

  /** `create_dir` of `/a/b/c` makes `c` a folder directly under the folder
      that `/a/b` names: `find_folder` there returns the fresh id. */
  lemma CreateDirMakesFolder(db: Db, u: UserId, decode: string -> string, path: string, freshId: Id, now: nat,
                             segs: seq<string>, p: Option<Id>)
    requires Wf(db) && PathSegments(path, decode) == Some(segs) && TargetParent(db, u, segs) == Ok(p)
    requires CreateDir(db, u, decode, path, freshId, now).Ok?
    ensures FindFolder(CreateDir(db, u, decode, path, freshId, now).value, u, p, segs[|segs| - 1]) == Some(freshId)
  {
    FindAfterCreateFolder(db, u, p, segs[|segs| - 1], freshId, now);
  }

  lemma RemoveFileKeepsWf(db: Db, u: UserId, decode: string -> string, path: string)
    requires Wf(db) && RemoveFile(db, u, decode, path).Ok?
    ensures Wf(RemoveFile(db, u, decode, path).value)
  {
    var res := ResolvePath(db, u, decode, path).value;
    DeleteNoteKeepsWf(db, u, res.parent, res.title, res.syntax);
  }

  lemma RemoveDirKeepsWf(db: Db, u: UserId, decode: string -> string, path: string)
    requires Wf(db) && RemoveDir(db, u, decode, path).Ok?
    ensures Wf(RemoveDir(db, u, decode, path).value)
  {
    DeleteFolderKeepsWf(db, u, ResolvePath(db, u, decode, path).value.id);
  }

  lemma RenameKeepsWf(db: Db, u: UserId, decode: string -> string, src: string, dst: string, now: nat)
    requires Wf(db) && Rename(db, u, decode, src, dst, now).Ok?
    ensures Wf(Rename(db, u, decode, src, dst, now).value)
  {
    var segs := PathSegments(dst, decode).value;
    var dp := TargetParent(db, u, segs).value;
    match ResolvePath(db, u, decode, src).value
    case NoteAt(sp, st, ss) =>
      var (dt, ds) := ParseFilename(segs[|segs| - 1]).value;
      RenameNoteKeepsWf(db, u, sp, st, ss, dp, dt, ds, now);
    case FolderAt(id) =>
      RenameFolderKeepsWf(db, u, id, dp, segs[|segs| - 1], now);
  }

  /** Flushing a file that `open` returned, against the store `open` left,
      keeps the tree well formed. */
  lemma FlushAfterOpenKeepsWf(db: Db, u: UserId, decode: string -> string, path: string, opts: OpenOptions,
                              freshId: Id, now: nat, data: seq<byte>, freshId2: Id, now2: nat)
    requires Wf(db) && Open(db, u, decode, path, opts, freshId, now).Ok?
    requires var (db1, f) := Open(db, u, decode, path, opts, freshId, now).value;
      Write(f, data).Ok? && Flush(Write(f, data).value, db1, u, freshId2, now2).Ok?
    ensures var (db1, f) := Open(db, u, decode, path, opts, freshId, now).value;
      Wf(Flush(Write(f, data).value, db1, u, freshId2, now2).value)
  {
    var (db1, f) := Open(db, u, decode, path, opts, freshId, now).value;
    OpenKeepsWf(db, u, decode, path, opts, freshId, now);
    var g := Write(f, data).value;
    CreateOrUpdateNoteKeepsWf(db1, u, g.parent, g.note.title, g.note.syntax, g.buf, freshId2, now2);
  }

  // ---------------------------------------------------------------------------
  // Listing and resolution agree

  /** A note listed under a folder's path resolves back to that note, provided
      its syntax has no dot (the name is split at its last dot). */
  lemma ListedNoteResolves(db: Db, u: UserId, segs: seq<string>, p: Option<Id>, id: Id)
    requires Wf(db) && NamesPlace(db, u, segs, p)
    requires id in db.notes && db.notes[id].parent == p && db.notes[id].user == u
    requires '.' !in db.notes[id].syntax
    ensures var n := db.notes[id];
      ResolveSegments(db, u, segs + [n.title + "." + n.syntax]) == Ok(NoteAt(p, n.title, n.syntax))
  {
    var n := db.notes[id];
    var all := segs + [n.title + "." + n.syntax];
    assert all[..|all| - 1] == segs;
    ParseFilenameUnique(n.title + "." + n.syntax, n.title, n.syntax);
    assert IsNoteMatch(db, u, p, n.title, n.syntax, id);
    ResolveSegmentsMeaning(db, u, all);
  }

  /** A folder listed under a folder's path resolves back to that folder
      unless a note of the same name shadows it. */
  lemma ListedFolderResolves(db: Db, u: UserId, segs: seq<string>, p: Option<Id>, id: Id)
    requires Wf(db) && NamesPlace(db, u, segs, p)
    requires id in db.folders && db.folders[id].parent == p && db.folders[id].user == u
    requires !NamesNote(db, u, p, db.folders[id].title)
    ensures ResolveSegments(db, u, segs + [db.folders[id].title]) == Ok(FolderAt(id))
  {
    var all := segs + [db.folders[id].title];
    assert all[..|all| - 1] == segs;
    assert NamesPlace(db, u, all, Some(id));
    ResolveSegmentsMeaning(db, u, all);
  }

  // ---------------------------------------------------------------------------
  // Effects seen through paths

  /** Opening an existing note leaves the store alone and gives a file whose
      bytes are the note's content, writable exactly when asked for. */
  lemma OpenExistingNote(db: Db, u: UserId, decode: string -> string, path: string, opts: OpenOptions,
                         freshId: Id, now: nat, p: Option<Id>, t: string, s: string)
    requires ResolvePath(db, u, decode, path) == Ok(NoteAt(p, t, s))
    ensures Open(db, u, decode, path, opts, freshId, now).Ok?
    ensures var (db', f) := Open(db, u, decode, path, opts, freshId, now).value;
      && db' == db
      && f.note == GetNote(db, u, p, t, s).value
      && f.buf == GetNote(db, u, p, t, s).value.content && f.pos == 0
      && (f.writable <==> opts.write || opts.append)
      && (f.writable ==> f.parent == p)
  {
  }

  /** A PUT to an existing note updates that note in place: opening it for
      writing, writing and flushing leaves a note under the same key and id
      holding the buffer, and every other note as it was. */
  lemma PutUpdatesInPlace(db: Db, u: UserId, decode: string -> string, path: string, opts: OpenOptions,
                          freshId: Id, now: nat, p: Option<Id>, t: string, s: string,
                          data: seq<byte>, freshId2: Id, now2: nat)
    requires Wf(db) && ResolvePath(db, u, decode, path) == Ok(NoteAt(p, t, s)) && opts.write
    requires var f := Open(db, u, decode, path, opts, freshId, now).value.1;
      Flush(Write(f, data).value, db, u, freshId2, now2).Ok?
    ensures var f := Open(db, u, decode, path, opts, freshId, now).value.1;
      var g := Write(f, data).value;
      var db' := Flush(g, db, u, freshId2, now2).value;
      && GetNote(db', u, p, t, s).Ok?
      && GetNote(db', u, p, t, s).value.id == GetNote(db, u, p, t, s).value.id
      && GetNote(db', u, p, t, s).value.content == g.buf
      && db'.notes.Keys == db.notes.Keys
      && (forall other | other in db.notes && other != GetNote(db, u, p, t, s).value.id :: db'.notes[other] == db.notes[other])
  {
    OpenExistingNote(db, u, decode, path, opts, freshId, now, p, t, s);
    var n := GetNote(db, u, p, t, s).value;
    var f := Open(db, u, decode, path, opts, freshId, now).value.1;
    var g := Write(f, data).value;
    assert g.parent == p && g.note.title == t && g.note.syntax == s;
    var w := CreateOrUpdateNote(db, u, p, t, s, g.buf, freshId2, now2);
    assert Flush(g, db, u, freshId2, now2) == Ok(w.value.0);
    FindNoteUnique(db, u, p, t, s, n.id);
    FindNoteUnique(db, u, p, t, s, w.value.1);
    GetAfterWrite(db, u, p, t, s, g.buf, freshId2, now2);
  }

  /** `metadata` of a note's path agrees with the `metadata` of the file that
      `open` returns for it: a file with the note's length and times. */
  lemma MetadataOfOpenedNote(db: Db, u: UserId, decode: string -> string, path: string, opts: OpenOptions,
                             freshId: Id, now: nat, p: Option<Id>, t: string, s: string)
    requires ResolvePath(db, u, decode, path) == Ok(NoteAt(p, t, s)) && GetNote(db, u, p, t, s).Ok?
    ensures Open(db, u, decode, path, opts, freshId, now).Ok?
    ensures Metadata(db, u, decode, path, now) == Ok(FileMetadata(Open(db, u, decode, path, opts, freshId, now).value.1, now))
  {
  }

  /** Opening a missing file with `create` on a well-formed store adds an
      empty note at the path and gives a writable file on it. */
  lemma OpenCreatesNote(db: Db, u: UserId, decode: string -> string, path: string, opts: OpenOptions,
                        freshId: Id, now: nat)
    requires Wf(db) && ResolvePath(db, u, decode, path).Err?
    requires Open(db, u, decode, path, opts, freshId, now).Ok?
    ensures PathSegments(path, decode).Some?
    ensures var (db', f) := Open(db, u, decode, path, opts, freshId, now).value;
      var segs := PathSegments(path, decode).value;
      && TargetParent(db, u, segs) == Ok(f.parent)
      && ParseFilename(segs[|segs| - 1]) == Some((f.note.title, f.note.syntax))
      && f.writable && f.buf == [] && f.pos == 0
      && GetNote(db', u, f.parent, f.note.title, f.note.syntax).Ok?
      && GetNote(db', u, f.parent, f.note.title, f.note.syntax).value.content == []
  {
    var p, t, s := OpenCreateStep(db, u, decode, path, opts, freshId, now);
    GetAfterWrite(db, u, p, t, s, [], freshId, now);
  }

  /** After a successful `rename` of a note to a destination whose segments
      `segs` lead to folder `dp` and end in the file name `dt.ds`, that key
      names a note with the source note's content. */
  lemma RenameMovesNote(db: Db, u: UserId, decode: string -> string, src: string, dst: string, now: nat,
                        sp: Option<Id>, st: string, ss: string,
                        segs: seq<string>, dp: Option<Id>, dt: string, ds: string)
    requires Wf(db) && ResolvePath(db, u, decode, src) == Ok(NoteAt(sp, st, ss))
    requires PathSegments(dst, decode) == Some(segs) && TargetParent(db, u, segs) == Ok(dp)
    requires ParseFilename(segs[|segs| - 1]) == Some((dt, ds))
    requires Rename(db, u, decode, src, dst, now).Ok?
    ensures GetNote(Rename(db, u, decode, src, dst, now).value, u, dp, dt, ds).Ok?
    ensures GetNote(Rename(db, u, decode, src, dst, now).value, u, dp, dt, ds).value.content
            == GetNote(db, u, sp, st, ss).value.content
  {
    assert Rename(db, u, decode, src, dst, now) == RenameNote(db, u, sp, st, ss, dp, dt, ds, now);
    GetAfterRenameNote(db, u, sp, st, ss, dp, dt, ds, now);
  }

  /** After a successful `rename` of a folder, the destination's last segment
      is its title under the destination's parent folder. */
  lemma RenameMovesFolder(db: Db, u: UserId, decode: string -> string, src: string, dst: string, now: nat, id: Id,
                          segs: seq<string>, dp: Option<Id>)
    requires Wf(db) && ResolvePath(db, u, decode, src) == Ok(FolderAt(id))
    requires PathSegments(dst, decode) == Some(segs) && TargetParent(db, u, segs) == Ok(dp)
    requires Rename(db, u, decode, src, dst, now).Ok?
    ensures FindFolder(Rename(db, u, decode, src, dst, now).value, u, dp, segs[|segs| - 1]) == Some(id)
  {
    assert Rename(db, u, decode, src, dst, now) == RenameFolder(db, u, id, dp, segs[|segs| - 1], now);
    FindAfterRenameFolder(db, u, id, dp, segs[|segs| - 1], now);
  }
}

=== FILE: effects.dfy ===
/** What a later lookup sees after each mutation on a well-formed store. */
module Effects {
  import opened Types
  import opened Store
  import opened Filesystem
  import opened Descendants
  import opened Invariants
  import Timestamps
  import Utf8

  /** After `create_or_update_note`, `get_note` on the same key returns the
      written content under the returned id, stamped with the write time. */
  lemma GetAfterWrite(db: Db, u: UserId, parent: Option<Id>, title: string, syntax: string,
                      content: Utf8.Text, freshId: Id, now: nat)
    requires Wf(db) && OwnedParent(db.folders, parent, u)
    requires CreateOrUpdateNote(db, u, parent, title, syntax, content, freshId, now).Ok?
    ensures var (db', id) := CreateOrUpdateNote(db, u, parent, title, syntax, content, freshId, now).value;
      var r := GetNote(db', u, parent, title, syntax);
      && r.Ok? && r.value.id == id && r.value.title == title && r.value.syntax == syntax
      && r.value.content == content && r.value.updated == Timestamps.CurrentTimestamp(now)
  {
    var (db', id) := CreateOrUpdateNote(db, u, parent, title, syntax, content, freshId, now).value;
    CreateOrUpdateNoteKeepsWf(db, u, parent, title, syntax, content, freshId, now);
    FindNoteUnique(db', u, parent, title, syntax, id);
  }

  /** After `delete_note`, the key no longer names a note. */
  lemma GoneAfterDeleteNote(db: Db, u: UserId, parent: Option<Id>, title: string, syntax: string)
    requires Wf(db) && DeleteNote(db, u, parent, title, syntax).Ok?
    ensures !NoteExists(DeleteNote(db, u, parent, title, syntax).value, u, parent, title, syntax)
    ensures GetNote(DeleteNote(db, u, parent, title, syntax).value, u, parent, title, syntax) == Err(NotFound)
  {
    var db' := DeleteNote(db, u, parent, title, syntax).value;
    var id :| IsNoteMatch(db, u, parent, title, syntax, id) && db'.notes == db.notes - {id};
    forall other | other in db'.notes
      ensures !IsNoteMatch(db', u, parent, title, syntax, other)
    {
      assert db'.notes[other] == db.notes[other];
    }
  }

  /** After `rename_note`, the destination key names the moved note with its
      content unchanged, and the source key is free unless it is the
      destination key. */
  lemma GetAfterRenameNote(db: Db, u: UserId, srcParent: Option<Id>, srcTitle: string, srcSyntax: string,
                           dstParent: Option<Id>, dstTitle: string, dstSyntax: string, now: nat)
    requires Wf(db) && OwnedParent(db.folders, dstParent, u)
    requires RenameNote(db, u, srcParent, srcTitle, srcSyntax, dstParent, dstTitle, dstSyntax, now).Ok?
    ensures var db' := RenameNote(db, u, srcParent, srcTitle, srcSyntax, dstParent, dstTitle, dstSyntax, now).value;
      && GetNote(db', u, dstParent, dstTitle, dstSyntax).Ok?
      && GetNote(db', u, dstParent, dstTitle, dstSyntax).value.content
         == GetNote(db, u, srcParent, srcTitle, srcSyntax).value.content
      && ((srcParent, srcTitle, srcSyntax) != (dstParent, dstTitle, dstSyntax) ==>
            !NoteExists(db', u, srcParent, srcTitle, srcSyntax))
  {
    var db' := RenameNote(db, u, srcParent, srcTitle, srcSyntax, dstParent, dstTitle, dstSyntax, now).value;
    RenameNoteKeepsWf(db, u, srcParent, srcTitle, srcSyntax, dstParent, dstTitle, dstSyntax, now);
    var id :| && IsNoteMatch(db, u, srcParent, srcTitle, srcSyntax, id)
              && IsNoteMatch(db', u, dstParent, dstTitle, dstSyntax, id)
              && db'.notes[id].content == db.notes[id].content
              && (forall other | other in db'.notes && other != id ::
                    other in db.notes && db'.notes[other] == db.notes[other]);
    FindNoteUnique(db', u, dstParent, dstTitle, dstSyntax, id);
    FindNoteUnique(db, u, srcParent, srcTitle, srcSyntax, id);
    if (srcParent, srcTitle, srcSyntax) != (dstParent, dstTitle, dstSyntax) {
      forall other | other in db'.notes
        ensures !IsNoteMatch(db', u, srcParent, srcTitle, srcSyntax, other)
      {
        if other != id {
          assert db'.notes[other] == db.notes[other];
        }
      }
    }
  }

  /** After `create_folder`, `find_folder` on the same key returns the new id. */
  lemma FindAfterCreateFolder(db: Db, u: UserId, parent: Option<Id>, title: string, freshId: Id, now: nat)
    requires Wf(db) && OwnedParent(db.folders, parent, u)
    requires CreateFolder(db, u, parent, title, freshId, now).Ok?
    ensures var (db', id) := CreateFolder(db, u, parent, title, freshId, now).value;
      FindFolder(db', u, parent, title) == Some(id)
  {
    var (db', id) := CreateFolder(db, u, parent, title, freshId, now).value;
    CreateFolderKeepsWf(db, u, parent, title, freshId, now);
    FindFolderUnique(db', u, parent, title, id);
  }

  /** After `rename_folder`, `find_folder` on the new key returns the folder,
      and every note stays where it was. */
  lemma FindAfterRenameFolder(db: Db, u: UserId, f: Id, newParent: Option<Id>, newTitle: string, now: nat)
    requires Wf(db) && OwnedParent(db.folders, newParent, u)
    requires RenameFolder(db, u, f, newParent, newTitle, now).Ok?
    ensures var db' := RenameFolder(db, u, f, newParent, newTitle, now).value;
      FindFolder(db', u, newParent, newTitle) == Some(f) && db'.notes == db.notes
  {
    var db' := RenameFolder(db, u, f, newParent, newTitle, now).value;
    RenameFolderKeepsWf(db, u, f, newParent, newTitle, now);
    FindFolderUnique(db', u, newParent, newTitle, f);
  }

  /** On a scoped store the cascade stays within one user: every folder it
      removes belongs to the owner of the deleted folder. */
  lemma SubtreeOwned(db: Db, f: Id, id: Id)
    requires Scoped(db) && f in db.folders && id in Subtree(db.folders, f)
    ensures db.folders[id].user == db.folders[f].user
  {
    var k: nat :| Up(db.folders, Some(id), k) == Some(f);
    ChainOwned(db, Some(id), db.folders[id].user, k);
  }

  /** After `delete_folder`, nothing left in the store lies below the deleted
      folder, and every note of another user is untouched. */
  lemma NothingBelowAfterDeleteFolder(db: Db, u: UserId, f: Id)
    requires Wf(db) && DeleteFolder(db, u, f).Ok?
    ensures var db' := DeleteFolder(db, u, f).value;
      && f !in db'.folders
      && (forall x | x in db'.folders :: !Reaches(db'.folders, Some(x), f))
      && (forall id | id in db'.notes :: db'.notes[id].parent != Some(f))
      && (forall id | id in db.notes && db.notes[id].user != u :: id in db'.notes)
  {
    var db' := DeleteFolder(db, u, f).value;
    DeleteFolderKeepsWf(db, u, f);
    var fs, fs' := db.folders, db'.folders;
    forall x | x in fs'
      ensures !Reaches(fs', Some(x), f)
    {
      ChainKeptBelow(db, fs', x, f);
    }
    forall id | id in db.notes && db.notes[id].user != u
      ensures id in db'.notes
    {
      var p := db.notes[id].parent;
      if p.Some? && p.value in Subtree(fs, f) {
        SubtreeOwned(db, f, p.value);
      }
    }
  }

  /** A chain in the table left by the cascade is a chain of the old table,
      so it cannot reach the deleted folder from a surviving one. */
  lemma ChainKeptBelow(db: Db, fs': map<Id, Folder>, x: Id, f: Id)
    requires Scoped(db) && x in fs'
    requires fs'.Keys <= db.folders.Keys && forall id | id in fs' :: fs'[id] == db.folders[id]
    requires !Reaches(db.folders, Some(x), f)
    ensures !Reaches(fs', Some(x), f)
  {
    forall n: nat
      ensures Up(fs', Some(x), n) != Some(f)
    {
      SubChain(fs', db.folders, Some(x), n, f);
    }
  }

  /** Every step of a chain in a sub-table that is still at a folder is the
      same step in the full table. */
  lemma {:induction false} SubChain(small: map<Id, Folder>, big: map<Id, Folder>, x: Option<Id>, n: nat, f: Id)
    requires small.Keys <= big.Keys && forall id | id in small :: small[id] == big[id]
    ensures Up(small, x, n) == Some(f) ==> Up(big, x, n) == Some(f)
    decreases n
  {
    if n > 0 && x.Some? && x.value in small {
      SubChain(small, big, small[x.value].parent, n - 1, f);
    }
  }
}

=== FILE: filesystem.dfy ===
/** The note/folder engine of `SqliteFs`: path resolution, lookups, listing and
    the six store mutations. Every query is scoped by the user id `u`. A SQLite
    `query_row` returns some matching row; that choice is `:|` here, and it is
    determined whenever the store keeps its keys unique. Fresh row ids and the
    clock are parameters. */
module Filesystem {
  import opened Types
  import opened Store
  import Text
  import Timestamps
  import Utf8

  /** `ResolvedPath`: what a URL path names. */
  datatype Resolved = Root | FolderAt(id: Id) | NoteAt(parent: Option<Id>, title: string, syntax: string)

  /** `NoteData`: a note as read from the table. */
  datatype NoteData = NoteData(id: Id, title: string, content: Utf8.Text, syntax: string, created: string, updated: string)

  /** `DirEntry`: one row of a listing, with its row id. */
  datatype DirEntry = FolderEntry(id: Id, folder: Folder) | NoteEntry(id: Id, note: Note)

  // ---------------------------------------------------------------------------
  // File names

  /** `parse_filename`: `name.rsplitn(2, '.')`, i.e. split at the last dot. */
  function ParseFilename(name: string): (r: Option<(string, string)>)
    ensures r.None? <==> '.' !in name
    ensures r.Some? ==> r.value.0 + "." + r.value.1 == name && '.' !in r.value.1
  {
    match Text.LastIndex(name, '.')
    case None => None
    case Some(i) =>
      assert name == name[..i] + "." + name[i + 1..];
      Some((name[..i], name[i + 1..]))
  }

  /** The split is the only one whose extension has no dot: it is at the last dot. */
  lemma ParseFilenameUnique(name: string, title: string, syntax: string)
    requires title + "." + syntax == name && '.' !in syntax
    ensures ParseFilename(name) == Some((title, syntax))
  {
    var i := Text.LastIndex(name, '.').value;
    assert name[|title|] == '.';
    assert forall j | |title| < j < |name| :: name[j] == syntax[j - |title| - 1];
    assert forall j | i < j < |name| :: name[j] == name[i + 1..][j - i - 1];
    assert i == |title|;
    assert name[..i] == title;
    assert name[i + 1..] == syntax;
  }

  // ---------------------------------------------------------------------------
  // Lookups

  predicate IsFolderMatch(db: Db, u: UserId, parent: Option<Id>, title: string, id: Id) {
    id in db.folders && db.folders[id].parent == parent && db.folders[id].title == title && db.folders[id].user == u
  }

  predicate IsNoteMatch(db: Db, u: UserId, parent: Option<Id>, title: string, syntax: string, id: Id) {
    && id in db.notes && db.notes[id].parent == parent && db.notes[id].title == title
    && db.notes[id].syntax == syntax && db.notes[id].user == u
  }

  /** `find_folder`: the id of a folder of `u` titled `title` directly under `parent`. */
  ghost function FindFolder(db: Db, u: UserId, parent: Option<Id>, title: string): (r: Option<Id>)
    ensures r.Some? ==> IsFolderMatch(db, u, parent, title, r.value)
    ensures r.None? <==> forall id :: !IsFolderMatch(db, u, parent, title, id)
  {
    if exists id :: IsFolderMatch(db, u, parent, title, id) then
      var id :| IsFolderMatch(db, u, parent, title, id);
      Some(id)
    else None
  }

  /** The rows of `u`'s notes with this parent, title and syntax: what the
      `SELECT 1 FROM notes WHERE ...` of `note_exists` returns. */
  function MatchingNotes(db: Db, u: UserId, parent: Option<Id>, title: string, syntax: string): set<Id> {
    set id | id in db.notes && IsNoteMatch(db, u, parent, title, syntax, id)
  }

  /** `note_exists`: the query returns a row. */
  function NoteExists(db: Db, u: UserId, parent: Option<Id>, title: string, syntax: string): (b: bool)
    ensures b <==> exists id | id in db.notes :: IsNoteMatch(db, u, parent, title, syntax, id)
  {
    var rows := MatchingNotes(db, u, parent, title, syntax);
    if rows == {} then
      assert forall id | id in db.notes && IsNoteMatch(db, u, parent, title, syntax, id) :: id in rows;
      false
    else
      var id :| id in rows;
      true
  }

  /** The `SELECT id FROM notes WHERE title = ? AND syntax = ? AND parent_id ...`
      query shared by the note operations. */
  ghost function FindNote(db: Db, u: UserId, parent: Option<Id>, title: string, syntax: string): (r: Option<Id>)
    ensures r.Some? ==> IsNoteMatch(db, u, parent, title, syntax, r.value)
    ensures r.None? <==> !NoteExists(db, u, parent, title, syntax)
  {
    if NoteExists(db, u, parent, title, syntax) then
      var id :| id in db.notes && IsNoteMatch(db, u, parent, title, syntax, id);
      Some(id)
    else None
  }

  /** With unique folder keys the lookup has one possible answer. */
  lemma FindFolderUnique(db: Db, u: UserId, parent: Option<Id>, title: string, id: Id)
    requires UniqueFolderKeys(db.folders) && IsFolderMatch(db, u, parent, title, id)
    ensures FindFolder(db, u, parent, title) == Some(id)
  {
  }

  /** With unique note keys the lookup has one possible answer. */
  lemma FindNoteUnique(db: Db, u: UserId, parent: Option<Id>, title: string, syntax: string, id: Id)
    requires UniqueNoteKeys(db.notes) && IsNoteMatch(db, u, parent, title, syntax, id)
    ensures FindNote(db, u, parent, title, syntax) == Some(id)
  {
  }

  function ToNoteData(id: Id, n: Note): NoteData {
    NoteData(id, n.title, n.content, n.syntax, n.created, n.updated)
  }

  /** `get_note`. */
  ghost function GetNote(db: Db, u: UserId, parent: Option<Id>, title: string, syntax: string): (r: Result<NoteData>)
    ensures r.Err? <==> !NoteExists(db, u, parent, title, syntax)
    ensures r.Err? ==> r.error == NotFound
    ensures r.Ok? ==> IsNoteMatch(db, u, parent, title, syntax, r.value.id)
                      && r.value == ToNoteData(r.value.id, db.notes[r.value.id])
  {
    match FindNote(db, u, parent, title, syntax)
    case None => Err(NotFound)
    case Some(id) => Ok(ToNoteData(id, db.notes[id]))
  }

  /** `list_entries`: the folders and notes of `u` directly under `parent`
      (the order of the rows is not modelled). */
  function ListEntries(db: Db, u: UserId, parent: Option<Id>): (r: set<DirEntry>)
    ensures forall id | id in db.folders ::
              FolderEntry(id, db.folders[id]) in r <==> db.folders[id].parent == parent && db.folders[id].user == u
    ensures forall id | id in db.notes ::
              NoteEntry(id, db.notes[id]) in r <==> db.notes[id].parent == parent && db.notes[id].user == u
    ensures forall e | e in r :: match e
      case FolderEntry(id, f) => id in db.folders && db.folders[id] == f
      case NoteEntry(id, n) => id in db.notes && db.notes[id] == n
  {
    (set id | id in db.folders && db.folders[id].parent == parent && db.folders[id].user == u
            :: FolderEntry(id, db.folders[id]))
    + (set id | id in db.notes && db.notes[id].parent == parent && db.notes[id].user == u
              :: NoteEntry(id, db.notes[id]))
  }

  // ---------------------------------------------------------------------------
  // Path resolution

  /** What a resolved path names belongs to `u`: a folder of `u`, or a note
      key under the root or a folder of `u`. */
  predicate Owned(db: Db, u: UserId, r: Resolved) {
    match r
    case Root => true
    case FolderAt(id) => id in db.folders && db.folders[id].user == u
    case NoteAt(p, _, _) => OwnedParent(db.folders, p, u)
  }

  /** The folder reached by walking `segs` from the root, each segment naming a
      folder of `u` under the previous one; `None` when a segment is missing. */
  ghost function WalkFolders(db: Db, u: UserId, segs: seq<string>): (r: Option<Option<Id>>)
    ensures r.Some? ==> OwnedParent(db.folders, r.value, u)
    decreases |segs|
  {
    if |segs| == 0 then Some(None)
    else match WalkFolders(db, u, segs[..|segs| - 1])
      case None => None
      case Some(p) =>
        match FindFolder(db, u, p, segs[|segs| - 1])
        case None => None
        case Some(id) => Some(Some(id))
  }

  /** The loop of `resolve_path`: the segments before the last are folders;
      the last is a note `title.syntax` if one exists, otherwise a folder with
      the whole segment as its title. */
  ghost function ResolveSegments(db: Db, u: UserId, segs: seq<string>): (r: Result<Resolved>)
    requires |segs| > 0
    ensures r.Err? ==> r.error == NotFound
    ensures r.Ok? ==> !r.value.Root?
    ensures r.Ok? ==> Owned(db, u, r.value)
  {
    var last := segs[|segs| - 1];
    match WalkFolders(db, u, segs[..|segs| - 1])
    case None => Err(NotFound)
    case Some(p) =>
      var parsed := ParseFilename(last);
      if parsed.Some? && NoteExists(db, u, p, parsed.value.0, parsed.value.1) then
        Ok(NoteAt(p, parsed.value.0, parsed.value.1))
      else
        match FindFolder(db, u, p, last)
        case Some(id) => Ok(FolderAt(id))
        case None => Err(NotFound)
  }

  /** The path with leading and trailing `/` trimmed, split at `/`, each piece
      percent-decoded by `decode`; `None` when nothing is left after trimming. */
  function PathSegments(path: string, decode: string -> string): (r: Option<seq<string>>)
    ensures r.None? <==> forall i | 0 <= i < |path| :: path[i] == '/'
    ensures r.Some? ==> |r.value| >= 1
  {
    var trimmed := Text.Trim(path, '/');
    Text.TrimEmpty(path, '/');
    if trimmed == [] then None
    else
      var parts := Text.Split(trimmed, {'/'});
      Some(seq(|parts|, i requires 0 <= i < |parts| => decode(parts[i])))
  }

  /** `resolve_path`. */
  ghost function ResolvePath(db: Db, u: UserId, decode: string -> string, path: string): (r: Result<Resolved>)
    ensures r == Ok(Root) <==> forall i | 0 <= i < |path| :: path[i] == '/'
    ensures r.Err? ==> r.error == NotFound
    ensures r.Ok? ==> Owned(db, u, r.value)
  {
    match PathSegments(path, decode)
    case None => Ok(Root)
    case Some(segs) => ResolveSegments(db, u, segs)
  }

  // ---------------------------------------------------------------------------
  // Mutations

  /** `create_or_update_note`: overwrite the content of the note with this key,
      or insert a new one under the fresh id. The insert fails like SQLite does
      on a primary-key clash or a parent that is not a folder. */
  ghost function CreateOrUpdateNote(db: Db, u: UserId, parent: Option<Id>, title: string, syntax: string,
                                    content: Utf8.Text, freshId: Id, now: nat): (r: Result<(Db, Id)>)
    ensures r.Err? ==> r.error == GeneralFailure
    ensures r.Ok? ==> var (db', id) := r.value;
      && db'.folders == db.folders
      && IsNoteMatch(db', u, parent, title, syntax, id)
      && db'.notes[id].content == content
      && db'.notes[id].updated == Timestamps.CurrentTimestamp(now)
      && (forall other | other in db.notes && other != id :: other in db'.notes && db'.notes[other] == db.notes[other])
    // an existing note keeps its id and everything but content and updated_at
    ensures NoteExists(db, u, parent, title, syntax) ==>
      && r.Ok? && IsNoteMatch(db, u, parent, title, syntax, r.value.1)
      && r.value.0.notes.Keys == db.notes.Keys
      && r.value.0.notes[r.value.1].created == db.notes[r.value.1].created
    // otherwise exactly one note is added, under the fresh id
    ensures !NoteExists(db, u, parent, title, syntax) ==>
      && (r.Ok? <==> freshId !in db.notes && ParentExists(db.folders, parent))
      && (r.Ok? ==> && r.value.1 == freshId
                    && r.value.0.notes.Keys == db.notes.Keys + {freshId}
                    && r.value.0.notes[freshId].created == r.value.0.notes[freshId].updated)
  {
    var ts := Timestamps.CurrentTimestamp(now);
    match FindNote(db, u, parent, title, syntax)
    case Some(id) =>
      Ok((db.(notes := db.notes[id := db.notes[id].(content := content, updated := ts)]), id))
    case None =>
      if freshId in db.notes || !ParentExists(db.folders, parent) then Err(GeneralFailure)
      else Ok((db.(notes := db.notes[freshId := Note(title, syntax, content, parent, u, ts, ts)]), freshId))
  }

  /** `create_folder`: refuse a title this user already has under `parent`
      (notes are not consulted), otherwise insert one folder. */
  ghost function CreateFolder(db: Db, u: UserId, parent: Option<Id>, title: string, freshId: Id, now: nat): (r: Result<(Db, Id)>)
    ensures (exists id :: IsFolderMatch(db, u, parent, title, id)) ==> r == Err(Exists)
    ensures (forall id :: !IsFolderMatch(db, u, parent, title, id)) ==>
      (r.Ok? <==> freshId !in db.folders && ParentExists(db.folders, parent))
    ensures r.Err? ==> r.error in {Exists, GeneralFailure}
    ensures r.Ok? ==> var (db', id) := r.value;
      && id == freshId && freshId !in db.folders
      && db'.notes == db.notes
      && db'.folders.Keys == db.folders.Keys + {id}
      && (forall other | other in db.folders :: db'.folders[other] == db.folders[other])
      && IsFolderMatch(db', u, parent, title, id)
      && db'.folders[id].created == db'.folders[id].updated == Timestamps.CurrentTimestamp(now)
  {
    var ts := Timestamps.CurrentTimestamp(now);
    if FindFolder(db, u, parent, title).Some? then Err(Exists)
    else if freshId in db.folders || !ParentExists(db.folders, parent) then Err(GeneralFailure)
    else Ok((db.(folders := db.folders[freshId := Folder(title, parent, u, ts, ts)]), freshId))
  }

  /** `delete_note`: remove the note with this key. */
  ghost function DeleteNote(db: Db, u: UserId, parent: Option<Id>, title: string, syntax: string): (r: Result<Db>)
    ensures r.Err? <==> !NoteExists(db, u, parent, title, syntax)
    ensures r.Err? ==> r.error == NotFound
    ensures r.Ok? ==> && r.value.folders == db.folders
                      && (exists id :: IsNoteMatch(db, u, parent, title, syntax, id)
                                       && r.value.notes == db.notes - {id})
  {
    match FindNote(db, u, parent, title, syntax)
    case None => Err(NotFound)
    case Some(id) => Ok(db.(notes := db.notes - {id}))
  }

  /** The folders whose parent chain reaches `f`, `f` included: the rows the
      `ON DELETE CASCADE` foreign keys remove with it. */
  ghost function Subtree(fs: map<Id, Folder>, f: Id): set<Id> {
    set id | id in fs && Reaches(fs, Some(id), f)
  }

  /** A note survives a cascade unless its parent goes. */
  ghost predicate Survives(n: Note, gone: set<Id>) {
    n.parent.None? || n.parent.value !in gone
  }

  /** `delete_folder`: a folder of this user goes together with every folder
      and note below it. */
  ghost function DeleteFolder(db: Db, u: UserId, f: Id): (r: Result<Db>)
    ensures r.Err? <==> !(f in db.folders && db.folders[f].user == u)
    ensures r.Err? ==> r.error == NotFound
    ensures r.Ok? ==> var gone := Subtree(db.folders, f);
      && f in gone
      && r.value.folders.Keys == db.folders.Keys - gone
      && (forall id | id in r.value.folders :: r.value.folders[id] == db.folders[id])
      && (forall id :: id in r.value.notes <==> id in db.notes && Survives(db.notes[id], gone))
      && (forall id | id in r.value.notes :: r.value.notes[id] == db.notes[id])
  {
    if !(f in db.folders && db.folders[f].user == u) then Err(NotFound)
    else
      var gone := Subtree(db.folders, f);
      assert Up(db.folders, Some(f), 0) == Some(f);
      Ok(Db(map id | id in db.folders && id !in gone :: db.folders[id],
            map id | id in db.notes && Survives(db.notes[id], gone) :: db.notes[id]))
  }

  /** `rename_note`: move the note with the source key to the destination key,
      deleting a different note that held the destination key. The row keeps
      its id and content. The foreign key on the new parent is checked. */
  ghost function RenameNote(db: Db, u: UserId, srcParent: Option<Id>, srcTitle: string, srcSyntax: string,
                            dstParent: Option<Id>, dstTitle: string, dstSyntax: string, now: nat): (r: Result<Db>)
    ensures !NoteExists(db, u, srcParent, srcTitle, srcSyntax) ==> r == Err(NotFound)
    ensures NoteExists(db, u, srcParent, srcTitle, srcSyntax) ==>
      (r.Ok? <==> ParentExists(db.folders, dstParent)) && (r.Err? ==> r.error == GeneralFailure)
    ensures r.Ok? ==> r.value.folders == db.folders && exists id ::
      && IsNoteMatch(db, u, srcParent, srcTitle, srcSyntax, id)
      && IsNoteMatch(r.value, u, dstParent, dstTitle, dstSyntax, id)
      && r.value.notes[id].content == db.notes[id].content
      && r.value.notes[id].created == db.notes[id].created
      && (forall other | other in r.value.notes && other != id ::
            other in db.notes && r.value.notes[other] == db.notes[other]
            && (UniqueNoteKeys(db.notes) ==> !IsNoteMatch(db, u, dstParent, dstTitle, dstSyntax, other)))
      && (forall other | other in db.notes && other != id && !IsNoteMatch(db, u, dstParent, dstTitle, dstSyntax, other) ::
            other in r.value.notes)
  {
    match FindNote(db, u, srcParent, srcTitle, srcSyntax)
    case None => Err(NotFound)
    case Some(id) =>
      var cleared :=
        match FindNote(db, u, dstParent, dstTitle, dstSyntax)
        case Some(dst) => if dst != id then db.notes - {dst} else db.notes
        case None => db.notes;
      if !ParentExists(db.folders, dstParent) then Err(GeneralFailure)
      else
        var moved := cleared[id].(title := dstTitle, syntax := dstSyntax, parent := dstParent,
                                  updated := Timestamps.CurrentTimestamp(now));
        var db' := db.(notes := cleared[id := moved]);
        assert IsNoteMatch(db', u, dstParent, dstTitle, dstSyntax, id);
        assert forall other | other in db.notes && !IsNoteMatch(db, u, dstParent, dstTitle, dstSyntax, other) ::
          other in cleared;
        Ok(db')
  }

  /** The loop of `is_descendant`: from `cur`, follow the parents of this
      user's folders looking for `ancestor`. `fuel` bounds the steps. */
  function DescendantWalk(fs: map<Id, Folder>, u: UserId, cur: Option<Id>, ancestor: Id, fuel: nat): (found: bool)
    ensures found ==> fuel > 0 && cur.Some?
    ensures fuel > 0 && cur == Some(ancestor) ==> found
    ensures found && cur != Some(ancestor) ==> cur.value in fs && fs[cur.value].user == u && fuel > 1
    decreases fuel
  {
    if fuel == 0 then false
    else match cur
      case None => false
      case Some(id) =>
        if id == ancestor then true
        else DescendantWalk(fs, u, if id in fs && fs[id].user == u then fs[id].parent else None, ancestor, fuel - 1)
  }

  /** `is_descendant`, run for `|folders| + 1` steps, which is as long as the
      loop can run on a store whose parent chains end (`ChainBound`). */
  function IsDescendant(db: Db, u: UserId, candidate: Id, ancestor: Id): (found: bool)
    ensures candidate == ancestor ==> found
    ensures found && candidate != ancestor ==>
      && candidate in db.folders && db.folders[candidate].user == u
      && db.folders[candidate].parent.Some?
  {
    DescendantWalk(db.folders, u, Some(candidate), ancestor, |db.folders| + 1)
  }

  /** `rename_folder`: in this order, a missing source is `NotFound`, another
      folder with the new title under the new parent is `Exists`, and a new
      parent equal to or below the folder is `Forbidden`. */
  ghost function RenameFolder(db: Db, u: UserId, f: Id, newParent: Option<Id>, newTitle: string, now: nat): (r: Result<Db>)
    ensures !(f in db.folders && db.folders[f].user == u) ==> r == Err(NotFound)
    ensures && f in db.folders && db.folders[f].user == u && UniqueFolderKeys(db.folders)
            && (exists d :: d != f && IsFolderMatch(db, u, newParent, newTitle, d))
            ==> r == Err(Exists)
    ensures r.Err? && r.error == Forbidden ==> newParent.Some? && IsDescendant(db, u, newParent.value, f)
    ensures && f in db.folders && db.folders[f].user == u
            && !(exists d :: d != f && IsFolderMatch(db, u, newParent, newTitle, d))
            && ParentExists(db.folders, newParent)
            && (newParent.Some? ==> !IsDescendant(db, u, newParent.value, f))
            ==> r.Ok?
    ensures r.Ok? ==>
      && f in db.folders && db.folders[f].user == u
      && (UniqueFolderKeys(db.folders) ==> forall d :: IsFolderMatch(db, u, newParent, newTitle, d) ==> d == f)
      && (newParent.Some? ==> !IsDescendant(db, u, newParent.value, f))
      && ParentExists(db.folders, newParent)
      && r.value.notes == db.notes
      && r.value.folders.Keys == db.folders.Keys
      && IsFolderMatch(r.value, u, newParent, newTitle, f)
      && (forall other | other in db.folders && other != f :: r.value.folders[other] == db.folders[other])
  {
    if !(f in db.folders && db.folders[f].user == u) then Err(NotFound)
    else
      var existing := FindFolder(db, u, newParent, newTitle);
      if existing.Some? && existing.value != f then Err(Exists)
      else if newParent.Some? && (newParent.value == f || IsDescendant(db, u, newParent.value, f)) then Err(Forbidden)
      else if !ParentExists(db.folders, newParent) then Err(GeneralFailure)
      else
        var moved := db.folders[f].(title := newTitle, parent := newParent, updated := Timestamps.CurrentTimestamp(now));
        Ok(db.(folders := db.folders[f := moved]))
  }
}

=== FILE: invariants.dfy ===
/** Every store mutation keeps the note tree well formed when its parent
    argument is the root or a folder of the acting user, which is what path
    resolution hands it. */
module Invariants {
  import opened Types
  import opened Store
  import opened Filesystem
  import opened Descendants

  /** A table that keeps every row of `fs` with the same parent, and maybe adds
      rows, has the same chain from any root or owned start on a scoped store. */
  lemma ChainKept(db: Db, fs': map<Id, Folder>, x: Option<Id>, u: UserId, n: nat)
    requires Scoped(db) && OwnedParent(db.folders, x, u)
    requires forall id | id in db.folders :: id in fs' && fs'[id].parent == db.folders[id].parent
    ensures Up(fs', x, n) == Up(db.folders, x, n)
  {
    forall k: nat | k < n
      ensures AgreeAt(db.folders, fs', Up(db.folders, x, k))
    {
      ChainOwned(db, x, u, k);
    }
    UpFrame(db.folders, fs', x, n);
  }

  /** A root-or-folder start has a chain that ends on an acyclic table. */
  lemma OwnedTerminates(fs: map<Id, Folder>, p: Option<Id>, u: UserId)
    requires Acyclic(fs) && OwnedParent(fs, p, u)
    ensures Terminates(fs, p)
  {
    if p.None? {
      assert Up(fs, p, 0) == None;
    }
  }

  /** `create_or_update_note` keeps the tree well formed. */
  lemma CreateOrUpdateNoteKeepsWf(db: Db, u: UserId, parent: Option<Id>, title: string, syntax: string,
                                  content: Utf8.Text, freshId: Id, now: nat)
    requires Wf(db) && OwnedParent(db.folders, parent, u)
    requires CreateOrUpdateNote(db, u, parent, title, syntax, content, freshId, now).Ok?
    ensures Wf(CreateOrUpdateNote(db, u, parent, title, syntax, content, freshId, now).value.0)
  {
    var (db', id) := CreateOrUpdateNote(db, u, parent, title, syntax, content, freshId, now).value;
    if NoteExists(db, u, parent, title, syntax) {
      // an update: the row written is the only one with its key
      assert IsNoteMatch(db, u, parent, title, syntax, id);
    } else {
      // an insert of a key no row had
      assert forall b | b in db.notes :: !IsNoteMatch(db, u, parent, title, syntax, b);
    }
    WriteOneNoteKeepsWf(db, db', u, parent, title, syntax, id);
  }

  /** Writing one note row `id` under a key that no other row has, with every
      other row and every folder left alone, keeps the tree well formed. */
  lemma WriteOneNoteKeepsWf(db: Db, db': Db, u: UserId, parent: Option<Id>, title: string, syntax: string, id: Id)
    requires Wf(db) && OwnedParent(db.folders, parent, u)
    requires db'.folders == db.folders && IsNoteMatch(db', u, parent, title, syntax, id)
    requires forall b | b in db'.notes && b != id ::
               b in db.notes && db'.notes[b] == db.notes[b] && !IsNoteMatch(db, u, parent, title, syntax, b)
    ensures Wf(db')
  {
    forall a | a in db'.notes
      ensures OwnedParent(db'.folders, db'.notes[a].parent, db'.notes[a].user)
    {
      if a != id {
        assert OwnedParent(db.folders, db.notes[a].parent, db.notes[a].user);
      }
    }
    forall a, b | && a in db'.notes && b in db'.notes && db'.notes[a].parent == db'.notes[b].parent
                  && db'.notes[a].title == db'.notes[b].title && db'.notes[a].syntax == db'.notes[b].syntax
                  && db'.notes[a].user == db'.notes[b].user
      ensures a == b
    {
      assert a != id && b != id ==> db.notes[a] == db'.notes[a] && db.notes[b] == db'.notes[b];
    }
  }

  /** `create_folder` keeps the tree well formed. */
  lemma CreateFolderKeepsWf(db: Db, u: UserId, parent: Option<Id>, title: string, freshId: Id, now: nat)
    requires Wf(db) && OwnedParent(db.folders, parent, u)
    requires CreateFolder(db, u, parent, title, freshId, now).Ok?
    ensures Wf(CreateFolder(db, u, parent, title, freshId, now).value.0)
  {
    var (db', id) := CreateFolder(db, u, parent, title, freshId, now).value;
    CreateFolderKeepsAcyclic(db, u, parent, title, freshId, now);
    var fs, fs' := db.folders, db'.folders;
    forall x | x in fs'
      ensures OwnedParent(fs', fs'[x].parent, fs'[x].user)
    {
      assert x != id ==> OwnedParent(fs, fs[x].parent, fs[x].user);
    }
    CreateFolderKeepsKeys(db, u, parent, title, freshId, now);
  }

  /** The existence check keeps folder keys unique. */
  lemma CreateFolderKeepsKeys(db: Db, u: UserId, parent: Option<Id>, title: string, freshId: Id, now: nat)
    requires UniqueFolderKeys(db.folders)
    requires CreateFolder(db, u, parent, title, freshId, now).Ok?
    ensures UniqueFolderKeys(CreateFolder(db, u, parent, title, freshId, now).value.0.folders)
  {
    var (db', id) := CreateFolder(db, u, parent, title, freshId, now).value;
    var fs, fs' := db.folders, db'.folders;
    assert forall b | b in fs :: !IsFolderMatch(db, u, parent, title, b);
    forall a, b | a in fs' && b in fs' && fs'[a].parent == fs'[b].parent && fs'[a].title == fs'[b].title
                  && fs'[a].user == fs'[b].user
      ensures a == b
    {
      assert a != id && b != id ==> fs[a] == fs'[a] && fs[b] == fs'[b];
    }
  }

  /** The new folder's chain is one step longer than its parent's, and every
      other chain is unchanged. */
  lemma CreateFolderKeepsAcyclic(db: Db, u: UserId, parent: Option<Id>, title: string, freshId: Id, now: nat)
    requires Wf(db) && OwnedParent(db.folders, parent, u)
    requires CreateFolder(db, u, parent, title, freshId, now).Ok?
    ensures Acyclic(CreateFolder(db, u, parent, title, freshId, now).value.0.folders)
  {
    var (db', id) := CreateFolder(db, u, parent, title, freshId, now).value;
    var fs, fs' := db.folders, db'.folders;
    forall x | x in fs'
      ensures Terminates(fs', Some(x))
    {
      if x == id {
        OwnedTerminates(fs, parent, u);
        var n: nat :| Up(fs, parent, n) == None;
        ChainKept(db, fs', parent, u, n);
        UpAdd(fs', Some(x), 1, n);
        assert Up(fs', Some(x), 1 + n) == None;
      } else {
        var n: nat :| Up(fs, Some(x), n) == None;
        ChainKept(db, fs', Some(x), fs[x].user, n);
      }
    }
  }

  /** `delete_note` keeps the tree well formed. */
  lemma DeleteNoteKeepsWf(db: Db, u: UserId, parent: Option<Id>, title: string, syntax: string)
    requires Wf(db) && DeleteNote(db, u, parent, title, syntax).Ok?
    ensures Wf(DeleteNote(db, u, parent, title, syntax).value)
  {
  }

  /** The cascade of `delete_folder` takes whole subtrees: what remains is
      closed under taking parents, so the tree stays well formed. */
  lemma DeleteFolderKeepsWf(db: Db, u: UserId, f: Id)
    requires Wf(db) && DeleteFolder(db, u, f).Ok?
    ensures Wf(DeleteFolder(db, u, f).value)
  {
    var db' := DeleteFolder(db, u, f).value;
    var fs, fs' := db.folders, db'.folders;
    var gone := Subtree(fs, f);
    forall id | id in fs'
      ensures OwnedParent(fs', fs'[id].parent, fs'[id].user)
    {
      ReachesVia(fs, Some(id), 1, fs[id].parent, f);
    }
    forall x | x in fs'
      ensures Terminates(fs', Some(x))
    {
      var n: nat :| Up(fs, Some(x), n) == None;
      forall k: nat | k < n
        ensures AgreeAt(fs, fs', Up(fs, Some(x), k))
      {
        ChainOwned(db, Some(x), fs[x].user, k);
        ReachesVia(fs, Some(x), k, Up(fs, Some(x), k), f);
      }
      UpFrame(fs, fs', Some(x), n);
    }
  }

  /** `rename_note` keeps the tree well formed. */
  lemma RenameNoteKeepsWf(db: Db, u: UserId, srcParent: Option<Id>, srcTitle: string, srcSyntax: string,
                          dstParent: Option<Id>, dstTitle: string, dstSyntax: string, now: nat)
    requires Wf(db) && OwnedParent(db.folders, dstParent, u)
    requires RenameNote(db, u, srcParent, srcTitle, srcSyntax, dstParent, dstTitle, dstSyntax, now).Ok?
    ensures Wf(RenameNote(db, u, srcParent, srcTitle, srcSyntax, dstParent, dstTitle, dstSyntax, now).value)
  {
    var db' := RenameNote(db, u, srcParent, srcTitle, srcSyntax, dstParent, dstTitle, dstSyntax, now).value;
    var id :| && IsNoteMatch(db, u, srcParent, srcTitle, srcSyntax, id)
              && IsNoteMatch(db', u, dstParent, dstTitle, dstSyntax, id)
              && (forall other | other in db'.notes && other != id ::
                    other in db.notes && db'.notes[other] == db.notes[other]
                    && (UniqueNoteKeys(db.notes) ==> !IsNoteMatch(db, u, dstParent, dstTitle, dstSyntax, other)));
    WriteOneNoteKeepsWf(db, db', u, dstParent, dstTitle, dstSyntax, id);
  }

  /** Re-pointing one folder `f` at a parent whose chain ends without passing
      through `f` leaves every chain ending: a chain that used to reach `f`
      now continues along the new parent's chain. */
  lemma MoveKeepsAcyclic(fs: map<Id, Folder>, fs': map<Id, Folder>, f: Id, np: Option<Id>)
    requires Acyclic(fs) && f in fs
    requires fs'.Keys == fs.Keys && f in fs' && fs'[f].parent == np
    requires forall id | id in fs && id != f :: fs'[id].parent == fs[id].parent
    requires Terminates(fs, np) && !Reaches(fs, np, f)
    ensures Acyclic(fs')
  {
    var m: nat :| Up(fs, np, m) == None;
    forall k: nat | k < m
      ensures AgreeAt(fs, fs', Up(fs, np, k))
    {
    }
    UpFrame(fs, fs', np, m);
    forall x | x in fs'
      ensures Terminates(fs', Some(x))
    {
      var n: nat :| Up(fs, Some(x), n) == None;
      if Reaches(fs, Some(x), f) {
        var k: nat :| Up(fs, Some(x), k) == Some(f);
        var j := FirstAt(fs, Some(x), Some(f), k);
        forall i: nat | i < j
          ensures AgreeAt(fs, fs', Up(fs, Some(x), i))
        {
        }
        UpFrame(fs, fs', Some(x), j);
        UpAdd(fs', Some(x), j, 1 + m);
        UpAdd(fs', Some(f), 1, m);
        assert Up(fs', Some(x), j + (1 + m)) == None;
      } else {
        forall i: nat | i < n
          ensures AgreeAt(fs, fs', Up(fs, Some(x), i))
        {
        }
        UpFrame(fs, fs', Some(x), n);
      }
    }
  }

  /** `rename_folder` keeps the tree well formed: the `is_descendant` check
      rules out exactly the moves that would close a cycle. */
  lemma RenameFolderKeepsWf(db: Db, u: UserId, f: Id, newParent: Option<Id>, newTitle: string, now: nat)
    requires Wf(db) && OwnedParent(db.folders, newParent, u)
    requires RenameFolder(db, u, f, newParent, newTitle, now).Ok?
    ensures Wf(RenameFolder(db, u, f, newParent, newTitle, now).value)
  {
    RenameFolderKeepsAcyclic(db, u, f, newParent, newTitle, now);
    RenameFolderKeepsKeys(db, u, f, newParent, newTitle, now);
    RenameFolderKeepsScoped(db, u, f, newParent, newTitle, now);
  }

  /** Every folder keeps its owner, and the moved one gets a parent of its owner. */
  lemma RenameFolderKeepsScoped(db: Db, u: UserId, f: Id, newParent: Option<Id>, newTitle: string, now: nat)
    requires Scoped(db) && OwnedParent(db.folders, newParent, u)
    requires RenameFolder(db, u, f, newParent, newTitle, now).Ok?
    ensures Scoped(RenameFolder(db, u, f, newParent, newTitle, now).value)
  {
    var db' := RenameFolder(db, u, f, newParent, newTitle, now).value;
    var fs, fs' := db.folders, db'.folders;
    assert forall id | id in fs :: fs'[id].user == fs[id].user;
    forall id | id in fs'
      ensures OwnedParent(fs', fs'[id].parent, fs'[id].user)
    {
      assert OwnedParent(fs, fs'[id].parent, fs'[id].user);
    }
    forall id | id in db'.notes
      ensures OwnedParent(fs', db'.notes[id].parent, db'.notes[id].user)
    {
      assert OwnedParent(fs, db.notes[id].parent, db.notes[id].user);
    }
  }

  /** The moved folder's new parent chain avoids it, so every chain still ends. */
  lemma RenameFolderKeepsAcyclic(db: Db, u: UserId, f: Id, newParent: Option<Id>, newTitle: string, now: nat)
    requires Wf(db) && OwnedParent(db.folders, newParent, u)
    requires RenameFolder(db, u, f, newParent, newTitle, now).Ok?
    ensures Acyclic(RenameFolder(db, u, f, newParent, newTitle, now).value.folders)
  {
    var fs, fs' := db.folders, RenameFolder(db, u, f, newParent, newTitle, now).value.folders;
    OwnedTerminates(fs, newParent, u);
    if newParent.Some? {
      IsDescendantIff(db, u, newParent.value, f);
    } else {
      UpNone(fs, 0);
      forall n: nat ensures Up(fs, newParent, n) != Some(f) {
        UpNone(fs, n);
      }
    }
    MoveKeepsAcyclic(fs, fs', f, newParent);
  }

  /** The existence check keeps folder keys unique after the move. */
  lemma RenameFolderKeepsKeys(db: Db, u: UserId, f: Id, newParent: Option<Id>, newTitle: string, now: nat)
    requires Wf(db)
    requires RenameFolder(db, u, f, newParent, newTitle, now).Ok?
    ensures UniqueFolderKeys(RenameFolder(db, u, f, newParent, newTitle, now).value.folders)
  {
    var fs' := RenameFolder(db, u, f, newParent, newTitle, now).value.folders;
    forall a, b | a in fs' && b in fs' && fs'[a].parent == fs'[b].parent && fs'[a].title == fs'[b].title
                  && fs'[a].user == fs'[b].user
      ensures a == b
    {
      if a != b && (a == f || b == f) {
        var other := if a == f then b else a;
        assert IsFolderMatch(db, u, newParent, newTitle, other);
      }
    }
  }
}

=== FILE: resolution.dfy ===
/** What `resolve_path` finds, stated against a relational reference: which
    folder a list of titles names, and when a final segment is a note. */
module Resolution {
  import opened Types
  import opened Store
  import opened Filesystem
  import Text

  /** `segs` are the titles of the folders of `u` on the way from the root
      down to `p` (`p == None` and no titles for the root itself). */
  ghost predicate NamesPlace(db: Db, u: UserId, segs: seq<string>, p: Option<Id>)
    decreases |segs|
  {
    if |segs| == 0 then p == None
    else
      && p.Some? && p.value in db.folders
      && db.folders[p.value].user == u
      && db.folders[p.value].title == segs[|segs| - 1]
      && NamesPlace(db, u, segs[..|segs| - 1], db.folders[p.value].parent)
  }

  /** The last segment names an existing note `title.syntax` under `p`. */
  ghost predicate NamesNote(db: Db, u: UserId, p: Option<Id>, last: string) {
    ParseFilename(last).Some? && NoteExists(db, u, p, ParseFilename(last).value.0, ParseFilename(last).value.1)
  }

  /** The walk only returns a folder that the titles name. */
  lemma {:induction false} WalkSound(db: Db, u: UserId, segs: seq<string>)
    requires WalkFolders(db, u, segs).Some?
    ensures NamesPlace(db, u, segs, WalkFolders(db, u, segs).value)
    decreases |segs|
  {
    if |segs| > 0 {
      WalkSound(db, u, segs[..|segs| - 1]);
    }
  }

  /** With unique folder keys, the walk finds the folder that the titles name. */
  lemma {:induction false} WalkComplete(db: Db, u: UserId, segs: seq<string>, p: Option<Id>)
    requires UniqueFolderKeys(db.folders) && NamesPlace(db, u, segs, p)
    ensures WalkFolders(db, u, segs) == Some(p)
    decreases |segs|
  {
    if |segs| > 0 {
      var prefix := segs[..|segs| - 1];
      WalkComplete(db, u, prefix, db.folders[p.value].parent);
      FindFolderUnique(db, u, db.folders[p.value].parent, segs[|segs| - 1], p.value);
    }
  }

  /** With unique folder keys, the segments of a path resolve to a note exactly
      when the leading titles name its folder and the last is its file name; to
      a folder exactly when all titles name it and no note shadows it; and to
      `NotFound` otherwise. */
  lemma ResolveSegmentsMeaning(db: Db, u: UserId, segs: seq<string>)
    requires |segs| > 0 && UniqueFolderKeys(db.folders)
    ensures var last := segs[|segs| - 1];
      var prefix := segs[..|segs| - 1];
      var r := ResolveSegments(db, u, segs);
      && (forall p, t, s :: r == Ok(NoteAt(p, t, s)) <==>
            NamesPlace(db, u, prefix, p) && ParseFilename(last) == Some((t, s)) && NoteExists(db, u, p, t, s))
      && (forall id :: r == Ok(FolderAt(id)) <==>
            NamesPlace(db, u, segs, Some(id)) && !NamesNote(db, u, db.folders[id].parent, last))
      && (r == Err(NotFound) <==>
            forall p | NamesPlace(db, u, prefix, p) ::
              !NamesNote(db, u, p, last) && forall id :: !IsFolderMatch(db, u, p, last, id))
  {
    var last := segs[|segs| - 1];
    var prefix := segs[..|segs| - 1];
    assert segs[..|segs| - 1] == prefix;
    var w := WalkFolders(db, u, prefix);
    if w.Some? {
      WalkSound(db, u, prefix);
    }
    forall p | NamesPlace(db, u, prefix, p)
      ensures w == Some(p)
    {
      WalkComplete(db, u, prefix, p);
    }
    forall id | NamesPlace(db, u, segs, Some(id))
      ensures w == Some(db.folders[id].parent) && IsFolderMatch(db, u, db.folders[id].parent, last, id)
    {
      WalkComplete(db, u, prefix, db.folders[id].parent);
    }
  }

  /** Each segment is `decode` of the piece at the same place: decoding
      changes the pieces, never how the path is cut. */
  lemma PathSegmentsDecode(path: string, decode: string -> string)
    ensures PathSegments(path, decode).Some? <==> PathSegments(path, s => s).Some?
    ensures PathSegments(path, decode).Some? ==>
      var segs, pieces := PathSegments(path, decode).value, PathSegments(path, s => s).value;
      |segs| == |pieces| && forall i | 0 <= i < |segs| :: segs[i] == decode(pieces[i])
  {
  }

  /** The segments of a path after trimming and splitting at `/`. With a
      decoder that changes nothing, joining them with `/` gives the trimmed
      path back. */
  lemma PathSegmentsJoin(path: string)
    requires PathSegments(path, s => s).Some?
    ensures Text.Join(PathSegments(path, s => s).value, '/') == Text.Trim(path, '/')
  {
    var trimmed := Text.Trim(path, '/');
    var parts := Text.Split(trimmed, {'/'});
    var segs := PathSegments(path, s => s).value;
    assert |segs| == |parts|;
    forall i | 0 <= i < |parts|
      ensures segs[i] == parts[i]
    {
    }
    assert segs == parts;
    Text.SplitJoin(trimmed, '/');
  }
}

=== FILE: store.dfy ===
/** The two SQLite tables as maps keyed by row id, the parent chain of a folder,
    and the invariants the tree keeps: foreign keys hold, parents belong to the
    same user, every parent chain reaches the root, and lookup keys are unique. */
module Store {
  import opened Types
  import Utf8

  type Id = string
  type UserId = string

  /** A row of `folders`. `parent == None` (SQL NULL) places it at the root. */
  datatype Folder = Folder(title: string, parent: Option<Id>, user: UserId, created: string, updated: string)

  /** A row of `notes`; it is addressed as `title.syntax` inside its parent. */
  datatype Note = Note(title: string, syntax: string, content: Utf8.Text, parent: Option<Id>,
                       user: UserId, created: string, updated: string)

  datatype Db = Db(folders: map<Id, Folder>, notes: map<Id, Note>)

  /** The folder `n` steps up the parent chain from `cur`. The chain stops
      (`None`) at the root and at an id that is not a folder. */
  function Up(fs: map<Id, Folder>, cur: Option<Id>, n: nat): Option<Id>
    decreases n
  {
    if n == 0 then cur
    else match cur
      case None => None
      case Some(id) => if id in fs then Up(fs, fs[id].parent, n - 1) else None
  }

  /** The chain from `x` passes through folder `a` (`x == Some(a)` included). */
  ghost predicate Reaches(fs: map<Id, Folder>, x: Option<Id>, a: Id) {
    exists n: nat :: Up(fs, x, n) == Some(a)
  }

  /** The chain from `x` ends. */
  ghost predicate Terminates(fs: map<Id, Folder>, x: Option<Id>) {
    exists n: nat :: Up(fs, x, n) == None
  }

  predicate ParentExists(fs: map<Id, Folder>, p: Option<Id>) {
    p.None? || p.value in fs
  }

  /** The `REFERENCES folders(id)` foreign keys of both tables hold. */
  predicate ParentsExist(db: Db) {
    && (forall id | id in db.folders :: ParentExists(db.folders, db.folders[id].parent))
    && (forall id | id in db.notes :: ParentExists(db.folders, db.notes[id].parent))
  }

  /** `p` is the root or a folder of user `u`. */
  predicate OwnedParent(fs: map<Id, Folder>, p: Option<Id>, u: UserId) {
    p.None? || (p.value in fs && fs[p.value].user == u)
  }

  /** Every row's parent is the root or an existing folder of the same user. */
  predicate Scoped(db: Db) {
    && (forall id | id in db.folders :: OwnedParent(db.folders, db.folders[id].parent, db.folders[id].user))
    && (forall id | id in db.notes :: OwnedParent(db.folders, db.notes[id].parent, db.notes[id].user))
  }

  /** Every folder's parent chain reaches the root. */
  ghost predicate Acyclic(fs: map<Id, Folder>) {
    forall id | id in fs :: Terminates(fs, Some(id))
  }

  /** No two folders of one user share a title under one parent. */
  predicate UniqueFolderKeys(fs: map<Id, Folder>) {
    forall a, b | a in fs && b in fs && fs[a].parent == fs[b].parent && fs[a].title == fs[b].title
                  && fs[a].user == fs[b].user :: a == b
  }

  /** No two notes of one user share `(parent, title, syntax)`. */
  predicate UniqueNoteKeys(ns: map<Id, Note>) {
    forall a, b | a in ns && b in ns && ns[a].parent == ns[b].parent && ns[a].title == ns[b].title
                  && ns[a].syntax == ns[b].syntax && ns[a].user == ns[b].user :: a == b
  }

  /** The invariant of the note tree. */
  ghost predicate Wf(db: Db) {
    Scoped(db) && Acyclic(db.folders) && UniqueFolderKeys(db.folders) && UniqueNoteKeys(db.notes)
  }

  // ---------------------------------------------------------------------------
  // Parent chains

  lemma {:induction false} UpNone(fs: map<Id, Folder>, n: nat)
    ensures Up(fs, None, n) == None
  {
  }

  /** Walking `a + b` steps is walking `a` steps, then `b` more. */
  lemma {:induction false} UpAdd(fs: map<Id, Folder>, x: Option<Id>, a: nat, b: nat)
    ensures Up(fs, x, a + b) == Up(fs, Up(fs, x, a), b)
    decreases a
  {
    if a > 0 {
      match x
      case None => UpNone(fs, b); UpNone(fs, a + b);
      case Some(id) =>
        if id in fs {
          UpAdd(fs, fs[id].parent, a - 1, b);
        } else {
          UpNone(fs, b);
        }
    }
  }

  /** Once a chain has ended it stays ended. */
  lemma UpStaysNone(fs: map<Id, Folder>, x: Option<Id>, n: nat, m: nat)
    requires Up(fs, x, n) == None && n <= m
    ensures Up(fs, x, m) == None
  {
    UpAdd(fs, x, n, m - n);
    UpNone(fs, m - n);
  }

  /** Two tables agree at `p` as far as chains are concerned. */
  predicate AgreeAt(fs: map<Id, Folder>, fs': map<Id, Folder>, p: Option<Id>) {
    p.None? || ((p.value in fs <==> p.value in fs') && (p.value in fs ==> fs'[p.value].parent == fs[p.value].parent))
  }

  /** A chain only looks at the folders it passes through: where the two
      tables agree on those, the chain is the same in both. */
  lemma {:induction false} UpFrame(fs: map<Id, Folder>, fs': map<Id, Folder>, x: Option<Id>, n: nat)
    requires forall k: nat | k < n :: AgreeAt(fs, fs', Up(fs, x, k))
    ensures Up(fs', x, n) == Up(fs, x, n)
    decreases n
  {
    if n > 0 {
      assert AgreeAt(fs, fs', Up(fs, x, 0));
      match x
      case None =>
        UpNone(fs, n);
        UpNone(fs', n);
      case Some(id) =>
        if id in fs {
          var p := fs[id].parent;
          forall k: nat | k < n - 1
            ensures AgreeAt(fs, fs', Up(fs, p, k))
          {
            assert Up(fs, x, k + 1) == Up(fs, p, k);
          }
          UpFrame(fs, fs', p, n - 1);
        }
    }
  }

  /** The first step at which a chain shows `v`. */
  lemma {:induction false} FirstAt(fs: map<Id, Folder>, x: Option<Id>, v: Option<Id>, k: nat) returns (j: nat)
    requires Up(fs, x, k) == v
    ensures j <= k && Up(fs, x, j) == v
    ensures forall i: nat | i < j :: Up(fs, x, i) != v
    decreases k
  {
    if i: nat :| i < k && Up(fs, x, i) == v {
      j := FirstAt(fs, x, v, i);
    } else {
      j := k;
    }
  }

  /** The folders seen in the first `m` steps of a chain. */
  ghost function ChainSet(fs: map<Id, Folder>, x: Option<Id>, m: nat): set<Id> {
    set i: nat | i < m && Up(fs, x, i).Some? :: Up(fs, x, i).value
  }

  /** The first `m` steps of the chain are at folders, all different. */
  ghost predicate DistinctSteps(fs: map<Id, Folder>, x: Option<Id>, m: nat) {
    && (forall i: nat | i < m :: Up(fs, x, i).Some?)
    && (forall i: nat, j: nat | i < j < m :: Up(fs, x, i) != Up(fs, x, j))
  }

  lemma DistinctPrefix(fs: map<Id, Folder>, x: Option<Id>, k: nat, m: nat)
    requires k <= m && DistinctSteps(fs, x, m)
    ensures DistinctSteps(fs, x, k)
  {
  }

  lemma {:induction false} ChainSetSize(fs: map<Id, Folder>, x: Option<Id>, m: nat)
    requires DistinctSteps(fs, x, m)
    ensures |ChainSet(fs, x, m)| == m
    decreases m
  {
    if m > 0 {
      DistinctPrefix(fs, x, m - 1, m);
      ChainSetSize(fs, x, m - 1);
      ChainSetStep(fs, x, m);
    }
  }

  /** The first `m` steps see the first `m - 1` and one folder more. */
  lemma ChainSetStep(fs: map<Id, Folder>, x: Option<Id>, m: nat)
    requires m > 0 && DistinctSteps(fs, x, m)
    ensures |ChainSet(fs, x, m)| == |ChainSet(fs, x, m - 1)| + 1
  {
    var last := Up(fs, x, m - 1).value;
    var s, s0 := ChainSet(fs, x, m), ChainSet(fs, x, m - 1);
    forall y | y in s ensures y in s0 + {last} {
      var i: nat :| i < m && Up(fs, x, i).Some? && Up(fs, x, i).value == y;
      assert i < m - 1 || y == last;
    }
    forall y | y in s0 ensures y in s && y != last {
      var i: nat :| i < m - 1 && Up(fs, x, i).Some? && Up(fs, x, i).value == y;
      assert Up(fs, x, i) != Up(fs, x, m - 1);
    }
    assert last in s;
    AddOneSize(s, s0, last);
  }

  lemma AddOneSize<T>(s: set<T>, s0: set<T>, y: T)
    requires s == s0 + {y} && y !in s0
    ensures |s| == |s0| + 1
  {
  }

  lemma SubsetSize<T>(a: set<T>, b: set<T>)
    requires a <= b
    ensures |a| <= |b|
  {
    assert b == a + (b - a);
  }

  /** Pigeonhole: a chain that ends does so within `|fs| + 1` steps, because
      the folders it passes before its last step are distinct rows of `fs`. */
  lemma ChainBound(fs: map<Id, Folder>, x: Option<Id>)
    requires Terminates(fs, x)
    ensures Up(fs, x, |fs| + 1) == None
  {
    var n: nat :| Up(fs, x, n) == None;
    var end := FirstAt(fs, x, None, n);
    if end > 0 {
      var m := end - 1;
      forall i: nat | i < m
        ensures Up(fs, x, i).Some? && Up(fs, x, i).value in fs
      {
        assert Up(fs, x, i + 1) != None;
        UpAdd(fs, x, i, 1);
      }
      forall i: nat, j: nat | i < j < m
        ensures Up(fs, x, i) != Up(fs, x, j)
      {
        if Up(fs, x, i) == Up(fs, x, j) {
          UpAdd(fs, x, i, end - j);
          UpAdd(fs, x, j, end - j);
        }
      }
      ChainSetSize(fs, x, m);
      SubsetSize(ChainSet(fs, x, m), fs.Keys);
    }
    UpStaysNone(fs, x, end, |fs| + 1);
  }
}

=== FILE: text.dfy ===
/** The Rust `str` operations the server relies on: `split`, `trim_*_matches`,
    `starts_with`, `contains` and `rsplitn(2, _)`'s search for the last separator. */
module Text {
  import opened Types

  /** No character of `s` is in `seps`. */
  predicate NoneOf(s: string, seps: set<char>) {
    forall i | 0 <= i < |s| :: s[i] !in seps
  }

  /** `str::split` with a set of separator characters: the pieces between
      separators, in order; an empty string gives one empty piece. */
  function Split(s: string, seps: set<char>): (r: seq<string>)
    ensures |r| >= 1
    ensures forall k | 0 <= k < |r| :: NoneOf(r[k], seps)
    decreases |s|
  {
    if |s| == 0 then [""]
    else if s[0] in seps then [""] + Split(s[1..], seps)
    else
      var rest := Split(s[1..], seps);
      [[s[0]] + rest[0]] + rest[1..]
  }

  /** The pieces glued back together with `sep` between consecutive ones. */
  function Join(pieces: seq<string>, sep: char): string
    requires |pieces| >= 1
    decreases |pieces|
  {
    if |pieces| == 1 then pieces[0] else pieces[0] + [sep] + Join(pieces[1..], sep)
  }

  /** Splitting at one separator character loses nothing: joining the pieces
      with it gives the input back. */
  lemma {:induction false} SplitJoin(s: string, sep: char)
    ensures Join(Split(s, {sep}), sep) == s
    decreases |s|
  {
    if |s| == 0 {
    } else if s[0] == sep {
      SplitJoin(s[1..], sep);
      assert s == [sep] + s[1..];
    } else {
      SplitJoin(s[1..], sep);
      var rest := Split(s[1..], {sep});
      if |rest| == 1 {
        assert s == [s[0]] + s[1..];
      } else {
        assert Join(rest, sep) == rest[0] + [sep] + Join(rest[1..], sep);
        assert ([[s[0]] + rest[0]] + rest[1..])[1..] == rest[1..];
        assert s == [s[0]] + s[1..];
      }
    }
  }

  /** A string without separators is a single piece. */
  lemma {:induction false} SplitNone(s: string, seps: set<char>)
    requires NoneOf(s, seps)
    ensures Split(s, seps) == [s]
    decreases |s|
  {
    if |s| > 0 {
      SplitNone(s[1..], seps);
      assert s == [s[0]] + s[1..];
    }
  }

  /** A separator-free head followed by a separator splits off as the first piece. */
  lemma {:induction false} SplitCons(a: string, c: char, b: string, seps: set<char>)
    requires NoneOf(a, seps) && c in seps
    ensures Split(a + [c] + b, seps) == [a] + Split(b, seps)
    decreases |a|
  {
    if |a| == 0 {
      assert a + [c] + b == [c] + b;
      assert ([c] + b)[1..] == b;
    } else {
      SplitCons(a[1..], c, b, seps);
      assert (a + [c] + b)[1..] == a[1..] + [c] + b;
      assert a == [a[0]] + a[1..];
    }
  }

  /** `trim_start_matches(c)`: the suffix left after dropping every leading `c`. */
  function TrimStart(s: string, c: char): (r: string)
    ensures |r| <= |s| && r == s[|s| - |r|..]
    ensures forall i | 0 <= i < |s| - |r| :: s[i] == c
    ensures r == [] || r[0] != c
    decreases |s|
  {
    if |s| > 0 && s[0] == c then TrimStart(s[1..], c) else s
  }

  /** `trim_end_matches(c)`: the prefix left after dropping every trailing `c`. */
  function TrimEnd(s: string, c: char): (r: string)
    ensures |r| <= |s| && r == s[..|r|]
    ensures forall i | |r| <= i < |s| :: s[i] == c
    ensures r == [] || r[|r| - 1] != c
    decreases |s|
  {
    if |s| > 0 && s[|s| - 1] == c then TrimEnd(s[..|s| - 1], c) else s
  }

  /** `trim_start_matches(c).trim_end_matches(c)`, which is also `trim_matches(c)`. */
  function Trim(s: string, c: char): string {
    TrimEnd(TrimStart(s, c), c)
  }

  /** Trimming leaves nothing exactly when the string is made only of `c`. */
  lemma TrimEmpty(s: string, c: char)
    ensures Trim(s, c) == [] <==> forall i | 0 <= i < |s| :: s[i] == c
  {
  }

  predicate StartsWith(s: string, prefix: string) {
    |prefix| <= |s| && s[..|prefix|] == prefix
  }

  /** `pat` occurs in `s` starting at index `i`. */
  predicate OccursAt(s: string, pat: string, i: nat) {
    i + |pat| <= |s| && s[i..i + |pat|] == pat
  }

  /** `str::contains` with a string pattern. */
  predicate Contains(s: string, pat: string) {
    exists i: nat | i <= |s| :: OccursAt(s, pat, i)
  }

  /** The index of the last `c` in `s`, if any. */
  function LastIndex(s: string, c: char): (r: Option<nat>)
    ensures r.None? <==> c !in s
    ensures r.Some? ==> r.value < |s| && s[r.value] == c && c !in s[r.value + 1..]
    decreases |s|
  {
    if |s| == 0 then None
    else if s[|s| - 1] == c then Some(|s| - 1)
    else
      var r := LastIndex(s[..|s| - 1], c);
      assert s == s[..|s| - 1] + [s[|s| - 1]];
      r
  }
}

=== FILE: timestamps.dfy ===
/** The timestamp text written into `created_at` / `updated_at`, and the parser
    that turns it back into seconds since the Unix epoch. Both use the same
    approximate calendar: 365-day years and 30-day months. The wall clock is a
    parameter; the parser's "current time" fallback is `None`. */
module Timestamps {
  import opened Types
  import Text

  const SecondsPerDay: nat := 86400
  const I64Max: int := 0x7FFF_FFFF_FFFF_FFFF
  const U64Modulus: nat := 0x1_0000_0000_0000_0000

  /** The six numbers of a `YYYY-MM-DD HH:MM:SS` timestamp. */
  datatype DateFields = DateFields(year: nat, month: nat, day: nat, hour: nat, minute: nat, second: nat)

  /** The approximate calendar date of `secs` seconds after the epoch. It is a
      bijection onto its range: the fields recover `secs` exactly. */
  function Fields(secs: nat): (d: DateFields)
    ensures d.hour < 24 && d.minute < 60 && d.second < 60
    ensures 1 <= d.day <= 30 && 1 <= d.month <= 13 && 1970 <= d.year <= 1970 + secs / SecondsPerDay
    ensures ((d.year - 1970) * 365 + (d.month - 1) * 30 + (d.day - 1)) * SecondsPerDay
            + d.hour * 3600 + d.minute * 60 + d.second == secs
  {
    var days := secs / SecondsPerDay;
    var rem := secs % SecondsPerDay;
    var dayOfYear := days % 365;
    assert days / 365 * 365 + dayOfYear == days;
    assert dayOfYear / 30 * 30 + dayOfYear % 30 == dayOfYear;
    assert rem / 3600 * 3600 + rem % 3600 / 60 * 60 + rem % 3600 % 60 == rem;
    DateFields(1970 + days / 365, 1 + dayOfYear / 30, 1 + dayOfYear % 30,
               rem / 3600, rem % 3600 / 60, rem % 3600 % 60)
  }

  predicate IsDigit(c: char) {
    '0' <= c <= '9'
  }

  predicate AllDigits(s: string) {
    forall i | 0 <= i < |s| :: IsDigit(s[i])
  }

  function DigitChar(d: nat): char
    requires d < 10
  {
    ('0' as int + d) as char
  }

  /** The decimal digits of `n` (Rust's `Display` for an unsigned integer). */
  function Decimal(n: nat): (s: string)
    ensures |s| >= 1 && AllDigits(s)
    decreases n
  {
    if n < 10 then [DigitChar(n)] else Decimal(n / 10) + [DigitChar(n % 10)]
  }

  /** `{:0w}`: left-padded with zeros to at least `width` characters. */
  function ZeroPad(s: string, width: nat): string {
    if |s| >= width then s else seq(width - |s|, _ => '0') + s
  }

  /** `format!("{:04}-{:02}-{:02} {:02}:{:02}:{:02}", ...)`. */
  function Format(d: DateFields): string {
    ZeroPad(Decimal(d.year), 4) + ['-'] + (
    ZeroPad(Decimal(d.month), 2) + ['-'] + (
    ZeroPad(Decimal(d.day), 2) + [' '] + (
    ZeroPad(Decimal(d.hour), 2) + [':'] + (
    ZeroPad(Decimal(d.minute), 2) + [':'] +
    ZeroPad(Decimal(d.second), 2)))))
  }

  /** `current_timestamp()` with the clock reading `secs` passed in. */
  function CurrentTimestamp(secs: nat): (stamp: string)
    ensures Text.Split(stamp, Separators) == Pieces(Fields(secs))
  {
    FormatSplits(Fields(secs));
    Format(Fields(secs))
  }

  /** The value of a string of decimal digits. */
  function DigitsValue(s: string): nat
    requires AllDigits(s)
    decreases |s|
  {
    if |s| == 0 then 0 else DigitsValue(s[..|s| - 1]) * 10 + (s[|s| - 1] as int - '0' as int)
  }

  /** `str::parse::<i64>()`: an optional sign, then one or more decimal digits,
      within the range of `i64`. */
  function ParseI64(s: string): (r: Option<int>)
    ensures r.Some? ==> -I64Max - 1 <= r.value <= I64Max
  {
    if |s| == 0 then None
    else if s[0] == '+' || s[0] == '-' then
      if |s| == 1 || !AllDigits(s[1..]) then None
      else
        var v: int := DigitsValue(s[1..]);
        if s[0] == '+' then (if v <= I64Max then Some(v) else None)
        else (if v <= I64Max + 1 then Some(-v) else None)
    else if AllDigits(s) && DigitsValue(s) <= I64Max then Some(DigitsValue(s))
    else None
  }

  const Separators: set<char> := {'-', ' ', ':'}

  /** Seconds since the epoch of a parsed timestamp in the approximate calendar,
      before the wrap to `u64`. */
  function CalendarSeconds(year: int, month: int, day: int, hour: int, minute: int, second: int): int {
    ((year - 1970) * 365 + (month - 1) * 30 + day) * SecondsPerDay + hour * 3600 + minute * 60 + second
  }

  /** `parse_datetime`: split at `-`, ` ` and `:`, read the first six pieces as
      `i64`, and count 365-day years, 30-day months and `day` whole days. The
      `i64` arithmetic and the `as u64` cast wrap modulo 2^64 (a release build).
      `None` stands for the fallback to the current time. */
  function ParseDatetime(s: string): (r: Option<nat>)
    ensures r.Some? ==> r.value < U64Modulus
  {
    var parts := Text.Split(s, Separators);
    if |parts| < 6 then None
    else
      var y, mo, d := ParseI64(parts[0]), ParseI64(parts[1]), ParseI64(parts[2]);
      var h, mi, se := ParseI64(parts[3]), ParseI64(parts[4]), ParseI64(parts[5]);
      if y.Some? && mo.Some? && d.Some? && h.Some? && mi.Some? && se.Some? then
        Some(CalendarSeconds(y.value, mo.value, d.value, h.value, mi.value, se.value) % U64Modulus)
      else None
  }

  lemma {:induction false} DecimalValue(n: nat)
    ensures DigitsValue(Decimal(n)) == n
    decreases n
  {
    if n >= 10 {
      DecimalValue(n / 10);
      var s := Decimal(n);
      assert s[..|s| - 1] == Decimal(n / 10);
    }
  }

  lemma {:induction false} ZerosValue(k: nat)
    ensures AllDigits(seq(k, _ => '0')) && DigitsValue(seq(k, _ => '0')) == 0
  {
    if k > 0 {
      ZerosValue(k - 1);
      assert seq(k, _ => '0')[..k - 1] == seq(k - 1, _ => '0');
    }
  }

  lemma {:induction false} LeadingZeros(k: nat, s: string)
    requires AllDigits(s)
    ensures AllDigits(seq(k, _ => '0') + s)
    ensures DigitsValue(seq(k, _ => '0') + s) == DigitsValue(s)
    decreases |s|
  {
    var z := seq(k, _ => '0');
    if |s| == 0 {
      ZerosValue(k);
      assert z + s == z;
    } else {
      LeadingZeros(k, s[..|s| - 1]);
      assert (z + s)[..|z + s| - 1] == z + s[..|s| - 1];
    }
  }

  /** A zero-padded decimal rendering parses back to the number it renders. */
  lemma PaddedParses(n: nat, width: nat)
    requires n <= I64Max
    ensures ParseI64(ZeroPad(Decimal(n), width)) == Some(n)
  {
    var s := Decimal(n);
    DecimalValue(n);
    if |s| < width {
      LeadingZeros(width - |s|, s);
    }
    var p := ZeroPad(s, width);
    assert IsDigit(p[0]);
  }

  /** The six zero-padded fields of a formatted timestamp. */
  function Pieces(d: DateFields): seq<string> {
    [ZeroPad(Decimal(d.year), 4), ZeroPad(Decimal(d.month), 2), ZeroPad(Decimal(d.day), 2),
     ZeroPad(Decimal(d.hour), 2), ZeroPad(Decimal(d.minute), 2), ZeroPad(Decimal(d.second), 2)]
  }

  lemma PaddedHasNoSeparator(n: nat, width: nat)
    ensures Text.NoneOf(ZeroPad(Decimal(n), width), Separators)
  {
    var s := Decimal(n);
    if |s| < width {
      LeadingZeros(width - |s|, s);
    }
  }

  /** Splitting a formatted timestamp at the separators gives back its six fields. */
  lemma FormatSplits(d: DateFields)
    ensures Text.Split(Format(d), Separators) == Pieces(d)
  {
    var p := Pieces(d);
    PaddedHasNoSeparator(d.year, 4);
    PaddedHasNoSeparator(d.month, 2);
    PaddedHasNoSeparator(d.day, 2);
    PaddedHasNoSeparator(d.hour, 2);
    PaddedHasNoSeparator(d.minute, 2);
    PaddedHasNoSeparator(d.second, 2);
    Text.SplitNone(p[5], Separators);
    Text.SplitCons(p[4], ':', p[5], Separators);
    Text.SplitCons(p[3], ':', p[4] + [':'] + p[5], Separators);
    Text.SplitCons(p[2], ' ', p[3] + [':'] + (p[4] + [':'] + p[5]), Separators);
    Text.SplitCons(p[1], '-', p[2] + [' '] + (p[3] + [':'] + (p[4] + [':'] + p[5])), Separators);
    Text.SplitCons(p[0], '-', p[1] + ['-'] + (p[2] + [' '] + (p[3] + [':'] + (p[4] + [':'] + p[5]))), Separators);
  }

  /** Parsing a formatted timestamp evaluates the approximate-calendar formula
      on its fields. */
  lemma FormatParses(d: DateFields)
    requires d.year <= I64Max && d.month <= I64Max && d.day <= I64Max
    requires d.hour <= I64Max && d.minute <= I64Max && d.second <= I64Max
    ensures ParseDatetime(Format(d)) ==
      Some(CalendarSeconds(d.year, d.month, d.day, d.hour, d.minute, d.second) % U64Modulus)
  {
    FormatSplits(d);
    PaddedParses(d.year, 4);
    PaddedParses(d.month, 2);
    PaddedParses(d.day, 2);
    PaddedParses(d.hour, 2);
    PaddedParses(d.minute, 2);
    PaddedParses(d.second, 2);
  }

  /** Reading the fields of `secs` back through the parser's formula counts
      `day` as whole days, one more than `Fields` counted. */
  lemma CalendarOfFields(secs: nat)
    ensures var d := Fields(secs);
      CalendarSeconds(d.year, d.month, d.day, d.hour, d.minute, d.second) == secs + SecondsPerDay
  {
    var d := Fields(secs);
    var wholeDays := (d.year - 1970) * 365 + (d.month - 1) * 30;
    assert (wholeDays + d.day) * SecondsPerDay == (wholeDays + (d.day - 1)) * SecondsPerDay + SecondsPerDay;
  }

  lemma FieldsFit(secs: nat)
    requires secs < U64Modulus
    ensures Fields(secs).year <= I64Max
  {
    assert secs / SecondsPerDay <= secs;
  }

  lemma SmallModulo(x: int)
    requires 0 <= x < U64Modulus
    ensures x % U64Modulus == x
  {
  }

  /** `parse_datetime(current_timestamp())` is the clock reading plus exactly
      one day: `day` counts from 1 but is added without subtracting 1. */
  lemma TimestampRoundTrip(secs: nat)
    requires secs + SecondsPerDay < U64Modulus
    ensures ParseDatetime(CurrentTimestamp(secs)) == Some(secs + SecondsPerDay)
  {
    var d := Fields(secs);
    FieldsFit(secs);
    FormatParses(d);
    CalendarOfFields(secs);
    var total := CalendarSeconds(d.year, d.month, d.day, d.hour, d.minute, d.second);
    assert total == secs + SecondsPerDay;
    SmallModulo(total);
    assert CurrentTimestamp(secs) == Format(d);
  }
}

=== FILE: types.dfy ===
/** Shared vocabulary: optional values, the error kinds of the WebDAV
    filesystem interface, results, and bytes. */
module Types {

  datatype Option<+T> = None | Some(value: T)

  /** The `FsError` kinds this server produces. */
  datatype FsError = NotFound | Forbidden | Exists | GeneralFailure

  /** `FsResult<T>`: a value or one of the filesystem errors. */
  datatype Result<+T> = Ok(value: T) | Err(error: FsError) {
    predicate IsFailure() {
      Err?
    }

    function PropagateFailure<U>(): Result<U>
      requires Err?
    {
      Err(error)
    }

    function Extract(): T
      requires Ok?
    {
      value
    }
  }

  newtype byte = x: int | 0 <= x < 256
}

=== FILE: utf8.dfy ===
/** Well-formed UTF-8 as defined by the syntax in section 4 of RFC 3629.
    This is the check `std::str::from_utf8` performs, and the shape of every
    Rust `String`, so note contents are modelled as byte sequences satisfying it. */
module Utf8 {
  import opened Types

  predicate IsTail(b: byte) {
    0x80 <= b <= 0xBF
  }

  /** The length of the well-formed sequence that `s` starts with, or 0 when
      its first bytes are not one. */
  function LeadLength(s: seq<byte>): (n: nat)
    requires |s| > 0
    ensures n <= 4 && n <= |s|
  {
    var b := s[0];
    if b <= 0x7F then 1
    else if 0xC2 <= b <= 0xDF then
      if |s| >= 2 && IsTail(s[1]) then 2 else 0
    else if b == 0xE0 then
      if |s| >= 3 && 0xA0 <= s[1] <= 0xBF && IsTail(s[2]) then 3 else 0
    else if (0xE1 <= b <= 0xEC) || (0xEE <= b <= 0xEF) then
      if |s| >= 3 && IsTail(s[1]) && IsTail(s[2]) then 3 else 0
    else if b == 0xED then
      if |s| >= 3 && 0x80 <= s[1] <= 0x9F && IsTail(s[2]) then 3 else 0
    else if b == 0xF0 then
      if |s| >= 4 && 0x90 <= s[1] <= 0xBF && IsTail(s[2]) && IsTail(s[3]) then 4 else 0
    else if 0xF1 <= b <= 0xF3 then
      if |s| >= 4 && IsTail(s[1]) && IsTail(s[2]) && IsTail(s[3]) then 4 else 0
    else if b == 0xF4 then
      if |s| >= 4 && 0x80 <= s[1] <= 0x8F && IsTail(s[2]) && IsTail(s[3]) then 4 else 0
    else 0
  }

  /** `s` is a concatenation of well-formed UTF-8 sequences. */
  predicate Valid(s: seq<byte>)
    decreases |s|
  {
    if |s| == 0 then true
    else
      var n := LeadLength(s);
      n > 0 && Valid(s[n..])
  }

  /** The bytes of a Rust `String` / `&str`. */
  type Text = s: seq<byte> | Valid(s) witness []
}
